=== FILE: README.md ===
# reactivego/scheduler: the serial trampoline, the immediate scheduler and `Gid`

This project models three pieces of the Go package `scheduler`:

- the serial **trampoline** scheduler (`trampoline.go`);
- the **immediate** scheduler (`immediate.go`);
- the goroutine-id parser **`Gid`** (`gid.go`).

It proves in Dafny what these promise.

The trampoline keeps a queue of future tasks ordered by due time. The
dispatch calls put a task on that queue and run nothing. `Wait` pops and runs
tasks one at a time until the queue is empty. Before running a task it waits
until the task is due, and it drops the task instead if its `Runner` was
cancelled. A recursive task re-enqueues itself through `self`. The immediate
scheduler runs every dispatched task in line, right away. `Gid` reads the
decimal id of the current goroutine out of the first 32 bytes of its stack
trace.

Task bodies are data: a small language of actions (`Tasks.Action`):

- print a line or a number;
- bump a counter;
- dispatch a body with one of the four `Schedule*` calls;
- call `self`;
- cancel a runner;
- branch on the counter.

The model interprets these bodies against a `World` that holds the clock, the
counter and the printed output. Time is an integer clock. It moves only when
a task waits for its due instant, or when the immediate scheduler sleeps.

Modules:

- `TaskQueue` (queue.dfy): the queue as a sequence of `Entry(at, run, cancel)`.
  Enqueueing (append, then `sort.Stable`) is modelled as a stable sorted
  insertion. The model proves that it is the one stable sort of the appended
  queue.
- `Tasks` and `Nesting` (tasks.dfy): the action language, the world, and two
  reference orders for nested plain dispatches: `BreadthFirst` and
  `DepthFirst`.
- `Trampoline` (trampoline.dfy): the `trampoline` state and every operation
  of trampoline.go.
- `TrampolineProperties` (trampoline_props.dfy): what a whole run does. This
  covers breadth-first order, due order, cancelled chains and counting chains.
- `Cancellation` (cancel.dfy): cancelling a `Runner` at any point of a drain
  stops every later iteration of it.
- `Immediate` (immediate.dfy): in-line execution with a stack budget.
- `GoroutineId` (gid.dfy): `Gid`, `bytes.IndexByte` and the loop of
  `strconv.ParseUint(s, 10, 64)` with its uint64 wrap-around written out.
- `SchedulerExamples` (examples.dfy): the repository's example programs run
  on the model.
- `Wrappers` (wrappers.dfy): `Option`.

Where the package's prose and its code disagree, the model follows the code.

- Cancelling a `Runner` twice closes its channel twice (trampoline.go:18-22),
  and in Go that panics. The model keeps a `panicking` flag in the state, and
  `CancelRunner` raises it on a second cancel. It raises it too on a handle
  not handed out yet, which stands for a `Runner` variable that is still nil:
  calling `Cancel` on it panics in Go. A panicking state runs nothing more.
- The doc comment of `Gid` (gid.go:15-18) says an error is returned. The
  code panics (gid.go:21-32). `Gid` yields `Panic(cause)`.

## Model

| member | source | states |
|---|---|---|
| `TaskQueue.Insert` | trampoline.go:66-68 | append-and-stable-sort adds exactly one entry and keeps a due-ordered queue due-ordered |
| `TaskQueue.InsertIsTheStableSort` | trampoline.go:66-68 | any stable sort by due time of the queue with the entry appended equals the stable insertion, as `sort.Stable` with `Less` requires |
| `TaskQueue.InsertIsStableSort` | trampoline.go:87-89 | the stable insertion is itself a stable sort of the appended queue: every due instant keeps its entries in queue order |
| `TaskQueue.InsertPlacement` | trampoline.go:66-68 | the new entry lands behind every entry due no later than it and ahead of every entry due after it, and removing it gives the old queue back |
| `TaskQueue.InsertAddsOne` | trampoline.go:96-98 | enqueueing loses no entry and adds exactly the new one (multiset equality) |
| `TaskQueue.InsertAfterAllDue` | trampoline.go:76-77 | when every queued entry is due no later than the new one, enqueueing is a plain append |
| `TaskQueue.Pop` | trampoline.go:125-126 | the head and the rest rebuild the queue, and in a due-ordered queue the head is due no later than any other entry |
| `TaskQueue.StableSortUnique` | trampoline.go:49-51 | two due-ordered queues that keep every due instant's entries in the same order are equal |
| `Trampoline.MakeTrampoline` | trampoline.go:41-43 | a new trampoline is valid, holds no task and `Count` is 0 |
| `Trampoline.Count` | trampoline.go:178-184 | `Count` is the queue length, plus one exactly when a task is current |
| `Trampoline.NewTask` | trampoline.go:12-16 | a new task gets a fresh runner handle, one more queue entry, and leaves the world and the closed runners alone |
| `Trampoline.NewTaskAddsOne` | trampoline.go:66-67 | creating a task adds exactly its first entry to the queue |
| `Trampoline.NewTaskAtBack` | trampoline.go:75-77 | a task due no earlier than everything queued joins the back of the queue |
| `Trampoline.Schedule` | trampoline.go:65-70 | `Schedule` returns a fresh runner and queues exactly one entry due now, running nothing |
| `Trampoline.ScheduleFuture` | trampoline.go:86-91 | `ScheduleFuture` queues exactly one entry due at now plus the delay, running nothing |
| `Trampoline.ScheduleRecursive` | trampoline.go:72-84 | `ScheduleRecursive` queues one entry due now whose `self` re-enqueues the same runner, running nothing |
| `Trampoline.ScheduleFutureRecursive` | trampoline.go:93-105 | `ScheduleFutureRecursive` queues one entry due at now plus the delay whose `self(d)` re-enqueues the same runner, running nothing |
| `Trampoline.CallSelf` | trampoline.go:74-78 | outside a recursive task `self` is absent; inside one, calling it adds one entry and changes nothing else |
| `Trampoline.CallSelfAddsOne` | trampoline.go:95-99 | calling `self(d)` adds exactly one entry of the same runner, due now (plain) or now plus `d` (future) |
| `Trampoline.CancelRunner` | trampoline.go:18-22 | cancel closes the runner's channel; a second close of the same channel panics, and so does cancelling a runner not handed out yet (a nil `Runner`); the queue and world are untouched |
| `Trampoline.Perform` | trampoline.go:65-105 | one action of a running task never runs another task, never moves the clock, only adds to output, queue and closed set, and does nothing once panicking |
| `Trampoline.Exec` | trampoline.go:79-81 | running a task body keeps the same guarantees over a whole body |
| `Trampoline.PerformIsSchedule` | trampoline.go:65-70 | glue, not a behaviour: a `Schedule` action of a task body is exactly the `Schedule` call, made with the body's own `self`, so that call's facts apply to task bodies |
| `Trampoline.PerformIsScheduleFuture` | trampoline.go:86-91 | a `ScheduleFuture` action is exactly the `ScheduleFuture` call |
| `Trampoline.PerformIsScheduleRecursive` | trampoline.go:72-84 | a `ScheduleRecursive` action is exactly the `ScheduleRecursive` call |
| `Trampoline.PerformIsScheduleFutureRecursive` | trampoline.go:93-105 | a `ScheduleFutureRecursive` action is exactly the `ScheduleFutureRecursive` call |
| `Trampoline.ExecKeepsQueued` | trampoline.go:65-105 | running a body never removes a queued entry |
| `Trampoline.Dispatch` | trampoline.go:125-126 | taking the head makes it current and removes it from the queue, keeping `Count` unchanged |
| `Trampoline.WaitAndRun` | trampoline.go:136-172 | a cancelled task is dropped without waiting or running; otherwise the clock reaches the due instant before the task runs |
| `Trampoline.RunTask` | trampoline.go:121-134 | `RunTask` reports false exactly on an empty queue and then changes nothing; otherwise it pops the head, drops it untouched if cancelled or else moves the clock to its due instant, and clears `current` unless the task panicked |
| `Trampoline.RunTaskKeepsRest` | trampoline.go:125-126 | running the head keeps every other queued entry queued |
| `Trampoline.Wait` | trampoline.go:107-110 | `Wait` ends with an empty queue and `Count` 0, unless a task panicked; output only grows, the clock never goes back and a cancelled runner stays cancelled |
| `Trampoline.Gosched` | trampoline.go:112-119 | on the owner goroutine `Gosched` runs one task; elsewhere, or with nothing queued, the scheduler state is unchanged |
| `TrampolineProperties.ScheduleThenWait` | trampoline.go:32-36 | dispatching nested plain tasks prints only the dispatcher's lines; `Wait` then prints every task's lines before those of the tasks it dispatched (breadth-first) and leaves 0 tasks |
| `TrampolineProperties.EarlierDueRunsFirst` | trampoline.go:86-91 | of two future tasks the earlier-due one prints first, and with equal due instants the first dispatched prints first |
| `TrampolineProperties.TwoFutures` | trampoline.go:86-91 | dispatching two future tasks queues them in due order, dispatch order breaking ties |
| `TrampolineProperties.CancelledNeverRun` | trampoline.go:136-172 | draining a queue of cancelled entries runs none of them and leaves the world exactly as it was |
| `TrampolineProperties.CancelledChainNeverRuns` | trampoline.go:72-84 | the special case of a recursive task alone in the queue whose runner is cancelled right after it is dispatched: `Wait` drops it without running its body, whatever that body is; the general case is `Cancellation.CancelledRunnerNeverRuns` |
| `TrampolineProperties.CountingChain` | trampoline.go:93-105 | a recursive task that prints and bumps a counter and calls `self` while below `n` prints every number from the start up to `n-1`, in order, during `Wait`, and the clock advances by the delays |
| `TrampolineProperties.CountWhileRunning` | trampoline.go:178-184 | a corollary of `Trampoline.Dispatch` setting `current` and `Trampoline.Exec` keeping it: while a task runs a body of the modelled actions (which never call `Gosched` or `Wait`), `Count` is the queue length plus one |
| `TaskQueue.DropInsert` | trampoline.go:66-68 | taking one runner's entries out of the queue commutes with enqueueing: an entry of that runner vanishes, any other lands where it would have landed |
| `Cancellation.ExecRelated` | trampoline.go:65-105 | running the same body on two states that differ only in queued entries of a cancelled runner leaves two states that differ only in that way |
| `Cancellation.WaitRelated` | trampoline.go:136-172 | a drain of one such state that empties the queue is matched by a drain of the other ending in the same world, with the same runners cancelled |
| `Cancellation.CancelledRunnerNeverRuns` | trampoline.go:18-22 | once a runner is cancelled, at any point of a drain and whatever else is queued, draining ends exactly as draining with that runner's entries taken out does: no later iteration of it runs, including those its own `self` queues |
| `Cancellation.NilRunnerPanics` | trampoline.go:18-22 | a task that cancels a runner not handed out yet (a nil `Runner` in Go) panics during `Wait` and prints nothing |
| `Cancellation.SelfCancelStops` | trampoline.go:72-84 | a recursive task that prints, calls `self` and then cancels its own runner runs once; the iteration it queued is dropped |
| `Immediate.Exec` | immediate.go:5-7 | running in line only adds to the output and never moves the clock back |
| `Immediate.ExecAppend` | immediate.go:18-20 | running two bodies back to back is running the first and then, if it finished, the second |
| `Immediate.Step` | immediate.go:18-34 | a dispatch with no stack left overflows and leaves the world alone; a print or counter action finishes with just its own effect; a cancel, or `self` outside a recursive task, finishes with the world unchanged; only dispatches, branches and `self` calls can overflow |
| `Immediate.CancelAll` | immediate.go:36-37 | cancelling changes nothing |
| `Immediate.ScheduleRunsInline` | immediate.go:18-20 | `Schedule` runs the task once, one stack level deeper, before the caller's next action |
| `Immediate.ScheduleFutureSleepsThenRuns` | immediate.go:26-29 | `ScheduleFuture` sleeps for the delay (not at all for a non-positive one), then runs the task in line |
| `Immediate.PlainRunsDepthFirst` | immediate.go:5-11 | nested plain dispatches print depth-first, and finish exactly when the stack holds their nesting depth |
| `Immediate.CountingChain` | immediate.go:22-34 | a recursive task calling `self` while below `n` prints the same numbers, nested one level per call, and overflows exactly when the stack is shorter than the chain |
| `GoroutineId.Decimal` | gid.go:15-16 | an id written in decimal is a non-empty run of digits |
| `GoroutineId.StackBuffer` | gid.go:20-21 | the 32-byte buffer holds the first bytes of the trace, zero-filled behind them |
| `GoroutineId.IndexByte` | gid.go:25 | `bytes.IndexByte` returns -1 exactly when the byte is absent, and otherwise the index of its first occurrence |
| `GoroutineId.Gid` | gid.go:19-34 | fewer than 12 written bytes panic with `UnrecognizedGID`; an id returned is a uint64 |
| `GoroutineId.Scan` | gid.go:29 | the digit loop never reports `UnrecognizedGID`; it succeeds only when every remaining byte is a digit, with a uint64 no smaller than the value so far; a syntax error returns 0 and means a non-digit remains; a range error returns 2^64-1 |
| `GoroutineId.ParseUint` | gid.go:29 | `strconv.ParseUint(s, 10, 64)` succeeds only on a non-empty digit string, with a uint64; a syntax error returns 0 and means empty input or a non-digit; a range error returns 2^64-1 |
| `GoroutineId.ParseUintIsReference` | gid.go:29 | the scan of `strconv.ParseUint(s, 10, 64)`, with uint64 wrap-around, agrees on every input with a loop-free reading: range error when the leading digits exceed 2^64-1, else syntax error on any non-digit or empty input, else the value |
| `GoroutineId.ParseUintSucceeds` | gid.go:29-33 | parsing succeeds exactly on a non-empty digit string denoting at most 2^64-1, and returns that number |
| `GoroutineId.ParseDecimal` | gid.go:29 | parsing the decimal digits of any uint64 gives it back |
| `GoroutineId.GidSucceeds` | gid.go:19-34 | `Gid` returns exactly when at least 12 bytes were written and a digit token of at most 2^64-1 ends at the first space after byte 10 |
| `GoroutineId.GidHasToken` | gid.go:24-29 | a returned id is the number the bytes between offset 10 and the first space denote |
| `GoroutineId.GidReadsToken` | gid.go:24-33 | given such a token, `Gid` returns the number it denotes |
| `GoroutineId.GidPanics` | gid.go:26-32 | no space after offset 10, or one right at it, panics with `UnrecognizedGID`; otherwise leading digits above 2^64-1 panic with a range error and any other non-digit with a syntax error |
| `GoroutineId.GidIgnoresCount` | gid.go:21 | once 12 bytes were written the count does not matter |
| `GoroutineId.GidOfPrefix` | gid.go:20-21 | only the first 32 bytes of the stack trace matter |
| `GoroutineId.GidOfHeader` | gid.go:15-16 | a trace that begins "goroutine ", the decimal id and a space yields that id for every uint64 |
| `GoroutineId.LargestId` | gid.go:15-16 | "goroutine 18446744073709551615 " takes 31 bytes, fits the buffer and yields 2^64-1 |
| `SchedulerExamples.TrampolineNested` | scheduler_test.go:40-75 | the outer/inner/leaf program prints nothing before `Wait`, then `> outer`, `< outer`, `> inner`, `< inner`, `leaf`, and leaves 0 tasks |
| `SchedulerExamples.TrampolineCounting` | scheduler_test.go:77-100 | the recursive counting example prints 0, 1, 2 during `Wait` |
| `SchedulerExamples.ImmediateNested` | example_test.go:12-40 | the same program on the immediate scheduler prints `> outer`, `> inner`, `leaf`, `< inner`, `< outer`, and needs three stack levels |
| `SchedulerExamples.ImmediateCounting` | immediate.go:22-24 | the counting example on the immediate scheduler prints 0, 1, 2 with the calls nested three deep |

## Left out

- goroutine.go, newgoroutine.go, currentgoroutine.go, scheduler.go and the
  `Schedule*Func` adapters are not part of this model. They are the
  concurrent schedulers, the interfaces and the function-type wrappers.
- `ScheduleLoop` (used by scheduler_test.go:102-123) is not defined in the
  trampoline source modelled here. It is left out.
- `String`, `Now`, `Since`, and the `sort.Interface` methods `Len` and `Swap`:
  formatting and clock reads. `Less` is modelled as `TaskQueue.Before`, and
  `sort.Stable` is modelled by `TaskQueue.Insert`.
- Real time. `time.Now` is the world's integer clock, and a duration is an
  integer. The split at 999 ms between `ShortWaitAndRun` (polling with
  `runtime.Gosched`) and `LongWaitAndRun` (a timer) is not modelled. Both wait
  until the task is due and then run it unless it was cancelled.
- Trampoline.WaitAndRun: a runner that another goroutine cancels while its
  task waits to be due is not modelled. `Cancel` may be called from any
  goroutine, and `ShortWaitAndRun` and `LongWaitAndRun` (trampoline.go:136-172)
  watch the channel during the wait, so Go drops such a task without running
  it. The model runs on one goroutine, where only code on that goroutine
  cancels: task bodies, and the caller between a `Schedule*` call and `Wait`.
  It checks the channel when the entry is popped and, if the channel is
  closed, drops the entry without waiting, as the early return of those two
  functions does (trampoline.go:137-141, 153-158).
- Immediate.Step: a `Cancel` action has no counterpart in a program that
  uses only the immediate scheduler. Its dispatch calls (immediate.go:18-34)
  return no `Runner`, so any `Runner` there is nil and calling `Cancel` on it
  panics in Go. The model lets the action finish with the world unchanged;
  that panic is not modelled. The scheduler-wide `immediate.Cancel()`
  (immediate.go:36-37) is `Immediate.CancelAll`.
- Trampoline.Gosched: task bodies cannot call `Gosched` or `Wait`. In Go a
  nested `RunTask` overwrites `s.current` (trampoline.go:125) and then sets
  it to nil (trampoline.go:132) while the outer task is still running, so
  `Count` is then the queue length alone. The model's `Count` facts about a
  running task hold only for bodies without such calls.
- Cancellation.CancelledRunnerNeverRuns: it compares only drains that empty
  the queue. A drain that ends in a panic or runs out of fuel is not
  compared.
- TrampolineProperties.EarlierDueRunsFirst: task code and the dispatch calls
  take no time in the model, so every dispatch in one body reads the same
  `now`. In Go `time.Now()` (trampoline.go:66, 87) moves on between two
  calls, so two delays closer together than the time between the calls may
  be ordered the other way.
- `runtime.Gosched`, `runtime.Stack` and the id of the calling goroutine are
  parameters:
  - `Trampoline.Gosched` takes the caller's id;
  - `GoroutineId.GidOf` takes the trace bytes.
- `MakeTrampoline` stores `Gid()` (a uint64) in the string field `gid`. The
  model treats the owner id as an opaque string given to `MakeTrampoline`.
- Trampoline.Wait takes `fuel`, a bound on the number of tasks it runs. A run
  that exhausts it ends in `OutOfFuel`. Go's `Wait` has no such bound and
  may not terminate.
- Immediate.Exec takes `stack`, the number of nested dispatches that fit.
  Exhausting it ends in `Overflow`, which stands for Go's stack overflow. Go's
  real limit is in bytes.
- GoroutineId.ParseUint: the `Func` and `Num` fields of `strconv.NumError`
  are not modelled. Only the cause (`ErrSyntax` or `ErrRange`) is.
- `Immediate.Cancel` does nothing (immediate.go:36-37) and is modelled as
  `CancelAll`, the identity on the world. The flags at immediate.go:39-49
  and trampoline.go:174-176 are constants.
- Concurrency: the trampoline is documented as single-goroutine only, and
  the model is sequential.
- The multiset facts of the four `Schedule*` functions are stated over the
  new entry. The ordering facts are in `TaskQueue.InsertPlacement`,
  `TaskQueue.InsertIsTheStableSort` and `Trampoline.NewTaskAtBack`.
- The future-dispatch examples (scheduler_test.go:125-193) are covered by
  the general lemmas `TrampolineProperties.EarlierDueRunsFirst` and
  `TrampolineProperties.TwoFutures`, not replayed line by line.

=== FILE: cancel.dfy ===
/**
 Cancelling a Runner (trampoline.go:18-22) at any point suppresses every
 iteration of it that has not run yet. `ShortWaitAndRun` and
 `LongWaitAndRun` (trampoline.go:136-172) look at the cancel channel before
 they run an entry, so once the channel is closed every entry of that Runner
 still queued, and every entry a later `self` call adds, is dropped unrun.

 The proof compares two drains that differ only in the queued entries of the
 closed Runner `h`: running the same code on both keeps them that way
 (`ExecRelated`), and so does every step of `Wait` (`WaitRelated`).
 */
module Cancellation {
  import opened Tasks
  import opened TaskQueue
  import opened Trampoline
  import opened Wrappers

  /** `s` and `t` differ only in queued entries of the closed Runner `h`,
      and in which task is current. */
  predicate Related(s: State, t: State, h: nat) {
    && t == s.(tasks := t.tasks, current := t.current)
    && Valid(s) && Valid(t)
    && h in s.closed
    && Drop(s.tasks, h) == Drop(t.tasks, h)
  }

  lemma DispatchRelated(s: State, t: State, a: Action, self: SelfRef, h: nat)
    requires Related(s, t, h) && !s.panicking && IsDispatch(a)
    ensures Related(Perform(s, a, self), Perform(t, a, self), h)
  {
    var e := Entry(DueAt(s.world.now, a), Closure(a.body, SelfFor(a, s.nextHandle, self)), s.nextHandle);
    assert Perform(s, a, self) == s.(tasks := Insert(s.tasks, e), nextHandle := s.nextHandle + 1);
    assert Perform(t, a, self) == t.(tasks := Insert(t.tasks, e), nextHandle := t.nextHandle + 1);
    DropInsert(s.tasks, e, h);
    DropInsert(t.tasks, e, h);
  }

  lemma AgainRelated(s: State, t: State, d: int, self: SelfRef, h: nat)
    requires Related(s, t, h) && !s.panicking
    ensures Related(Perform(s, Again(d), self), Perform(t, Again(d), self), h)
  {
    assert Perform(s, Again(d), self) == CallSelf(s, self, d);
    assert Perform(t, Again(d), self) == CallSelf(t, self, d);
    CallSelfRelated(s, t, d, self, h);
  }

  lemma CallSelfRelated(s: State, t: State, d: int, self: SelfRef, h: nat)
    requires Related(s, t, h)
    ensures Related(CallSelf(s, self, d), CallSelf(t, self, d), h)
  {
    if self.SelfOf? {
      var at := if self.timed then s.world.now + d else s.world.now;
      var e := Entry(at, Closure(self.task, self), self.cancel);
      assert CallSelf(s, self, d).tasks == Insert(s.tasks, e);
      assert CallSelf(t, self, d).tasks == Insert(t.tasks, e);
      DropInsert(s.tasks, e, h);
      DropInsert(t.tasks, e, h);
    }
  }

  /** One action keeps two related states related. */
  lemma {:induction false} PerformRelated(s: State, t: State, a: Action, self: SelfRef, h: nat)
    requires Related(s, t, h)
    ensures Related(Perform(s, a, self), Perform(t, a, self), h)
    decreases a
  {
    if s.panicking || IsLocal(a) || a.Cancel? {
    } else if IsDispatch(a) {
      DispatchRelated(s, t, a, self, h);
    } else if a.IfBelow? {
      if s.world.counter < a.limit {
        ExecRelated(s, t, a.body, self, h);
      }
    } else if a.Again? {
      AgainRelated(s, t, a.delay, self, h);
    }
  }

  /** Running the same body keeps two related states related: whatever the
      body dispatches, and whatever entries of `h` its `self` adds, lands
      on both sides alike. */
  lemma {:induction false} ExecRelated(s: State, t: State, actions: seq<Action>, self: SelfRef, h: nat)
    requires Related(s, t, h)
    ensures Related(Exec(s, actions, self), Exec(t, actions, self), h)
    decreases actions
  {
    if actions != [] {
      PerformRelated(s, t, actions[0], self, h);
      ExecRelated(Perform(s, actions[0], self), Perform(t, actions[0], self), actions[1..], self, h);
    }
  }

  /** `RunTask` on two related states with the same head of another Runner. */
  lemma RunTaskRelated(s: State, t: State, h: nat)
    requires Related(s, t, h) && !s.panicking
    requires s.tasks != [] && t.tasks != [] && s.tasks[0] == t.tasks[0]
    requires Drop(s.tasks[1..], h) == Drop(t.tasks[1..], h)
    ensures Related(RunTask(s).0, RunTask(t).0, h)
  {
    var e := s.tasks[0];
    var ds, dt := Dispatch(s), Dispatch(t);
    assert Related(ds, dt, h);
    if e.cancel !in s.closed {
      var now := Max(s.world.now, e.at);
      ExecRelated(ds.(world := ds.world.(now := now)), dt.(world := dt.world.(now := now)), e.run.body, e.run.self, h);
    }
  }

  /** Dropping the head entry of the closed Runner `h` on either side keeps
      a related pair. */
  lemma DropHeadRelated(s: State, t: State, h: nat)
    requires Related(s, t, h) && t.tasks != [] && t.tasks[0].cancel == h
    ensures Related(s, t.(tasks := t.tasks[1..], current := None), h)
  {
    assert Pop(t.tasks).1 == t.tasks[1..];
  }

  lemma DropHeadRelatedLeft(s: State, t: State, h: nat)
    requires Related(s, t, h) && s.tasks != [] && s.tasks[0].cancel == h
    ensures Related(s.(tasks := s.tasks[1..], current := None), t, h)
  {
    assert Pop(s.tasks).1 == s.tasks[1..];
  }

  /** What `WaitRelated` promises: a drain of `t` that ends like the given
      drain of `s`. */
  ghost predicate Matched(d: Drain, t: State, h: nat) {
    exists g: nat ::
      && !t.panicking
      && Wait(t, g).Drained?
      && Wait(t, g).state.world == d.state.world
      && Wait(t, g).state.closed == d.state.closed
  }

  /** `Wait` passes over a head entry whose Runner is cancelled. */
  lemma SkipCancelled(s: State, fuel: nat)
    requires !s.panicking && s.tasks != [] && s.tasks[0].cancel in s.closed && fuel > 0
    ensures Wait(s, fuel) == Wait(s.(tasks := s.tasks[1..], current := None), fuel - 1)
  {
    assert RunTask(s) == (s.(tasks := s.tasks[1..], current := None), true);
  }

  /** A drain that empties a non-empty queue runs at least one task. */
  lemma DrainedHasFuel(s: State, fuel: nat)
    requires !s.panicking && s.tasks != [] && Wait(s, fuel).Drained?
    ensures fuel > 0
  {
  }

  /** A drain of `s` that empties the queue is matched by a drain of `t`
      ending in the same world, with the same Runners cancelled. */
  lemma {:induction false} WaitRelated(s: State, t: State, h: nat, fuel: nat)
    requires Related(s, t, h) && !s.panicking && Wait(s, fuel).Drained?
    ensures Matched(Wait(s, fuel), t, h)
    decreases fuel, |t.tasks|, 1
  {
    if t.tasks != [] && t.tasks[0].cancel == h {
      WaitDropsRight(s, t, h, fuel);
    } else if s.tasks != [] && s.tasks[0].cancel == h {
      WaitDropsLeft(s, t, h, fuel);
    } else {
      WaitRunsBoth(s, t, h, fuel);
    }
  }

  /** `t` drops its head entry of `h` on its own. */
  lemma {:induction false} WaitDropsRight(s: State, t: State, h: nat, fuel: nat)
    requires Related(s, t, h) && !s.panicking && Wait(s, fuel).Drained?
    requires t.tasks != [] && t.tasks[0].cancel == h
    ensures Matched(Wait(s, fuel), t, h)
    decreases fuel, |t.tasks|, 0
  {
    var t' := t.(tasks := t.tasks[1..], current := None);
    DropHeadRelated(s, t, h);
    WaitRelated(s, t', h, fuel);
    var g: nat :| Wait(t', g).Drained?
      && Wait(t', g).state.world == Wait(s, fuel).state.world
      && Wait(t', g).state.closed == Wait(s, fuel).state.closed;
    SkipCancelled(t, g + 1);
  }

  /** `s` drops its head entry of `h` on its own. */
  lemma {:induction false} WaitDropsLeft(s: State, t: State, h: nat, fuel: nat)
    requires Related(s, t, h) && !s.panicking && Wait(s, fuel).Drained?
    requires s.tasks != [] && s.tasks[0].cancel == h
    ensures Matched(Wait(s, fuel), t, h)
    decreases fuel, |t.tasks|, 0
  {
    var s' := s.(tasks := s.tasks[1..], current := None);
    DropHeadRelatedLeft(s, t, h);
    DrainedHasFuel(s, fuel);
    SkipCancelled(s, fuel);
    WaitRelated(s', t, h, fuel - 1);
  }

  /** Neither head belongs to `h`: both queues are empty, or both run the
      same entry. */
  lemma {:induction false} WaitRunsBoth(s: State, t: State, h: nat, fuel: nat)
    requires Related(s, t, h) && !s.panicking && Wait(s, fuel).Drained?
    requires s.tasks == [] || s.tasks[0].cancel != h
    requires t.tasks == [] || t.tasks[0].cancel != h
    ensures Matched(Wait(s, fuel), t, h)
    decreases fuel, |t.tasks|, 0
  {
    DropEmpty(s.tasks, h);
    DropEmpty(t.tasks, h);
    if s.tasks == [] {
      assert Wait(t, 0) == Drained(t);
    } else {
      DropHead(s.tasks, h);
      DropHead(t.tasks, h);
      RunTaskRelated(s, t, h);
      var s2, t2 := RunTask(s).0, RunTask(t).0;
      assert Wait(s, fuel) == Wait(s2, fuel - 1);
      WaitRelated(s2, t2, h, fuel - 1);
      var g: nat :| Wait(t2, g).Drained?
        && Wait(t2, g).state.world == Wait(s, fuel).state.world
        && Wait(t2, g).state.closed == Wait(s, fuel).state.closed;
      assert Wait(t, g + 1) == Wait(t2, g);
    }
  }

  /** The state with the Runner `h` taken out of the queue. */
  function Purge(s: State, h: nat): (r: State)
    ensures Valid(s) ==> Valid(r)
    ensures forall i | 0 <= i < |r.tasks| :: r.tasks[i].cancel != h
  {
    if Sorted(s.tasks) then DropSorted(s.tasks, h); s.(tasks := Drop(s.tasks, h))
    else s.(tasks := Drop(s.tasks, h))
  }

  /** Once the Runner `h` is cancelled, at any point of a drain and whatever
      else is queued, none of its iterations runs any more: draining ends in
      exactly the world, with exactly the Runners cancelled, that draining
      with the Runner's entries taken out of the queue does. */
  lemma CancelledRunnerNeverRuns(s: State, h: nat, fuel: nat)
    requires Valid(s) && !s.panicking && h in s.closed && Wait(s, fuel).Drained?
    ensures exists g: nat ::
      && Wait(Purge(s, h), g).Drained?
      && Wait(Purge(s, h), g).state.world == Wait(s, fuel).state.world
      && Wait(Purge(s, h), g).state.closed == Wait(s, fuel).state.closed
  {
    var p := Purge(s, h);
    DropNone(p.tasks, h);
    assert Related(s, p, h);
    WaitRelated(s, p, h, fuel);
    var g: nat :| !p.panicking && Wait(p, g).Drained?
      && Wait(p, g).state.world == Wait(s, fuel).state.world
      && Wait(p, g).state.closed == Wait(s, fuel).state.closed;
  }

  /** The body of `SelfCancelStops`: print, call `self`, cancel Runner 0. */
  const SelfCancelling: seq<Action> := [Emit("tick"), Again(0), Cancel(0)]

  lemma SelfCancelDispatch(gid: string, w: World)
    ensures Exec(MakeTrampoline(gid, w), [ScheduleRecursive(SelfCancelling)], NoSelf)
      == MakeTrampoline(gid, w).(tasks := [Entry(w.now, Closure(SelfCancelling, SelfOf(SelfCancelling, 0, false)), 0)], nextHandle := 1)
  {
    var e := Entry(w.now, Closure(SelfCancelling, SelfOf(SelfCancelling, 0, false)), 0);
    var q: seq<Task> := [];
    InsertAfterAllDue(q, e);
    assert [ScheduleRecursive(SelfCancelling)][1..] == [];
  }

  /** The `self()` of `SelfCancelling` queues one more entry of Runner 0. */
  lemma SelfCancelAgain(d: State, e: Task)
    requires !d.panicking && d.tasks == []
    requires e == Entry(d.world.now, Closure(SelfCancelling, SelfOf(SelfCancelling, 0, false)), 0)
    ensures Perform(d, Again(0), SelfOf(SelfCancelling, 0, false)) == d.(tasks := [e])
  {
    var q: seq<Task> := [];
    InsertAfterAllDue(q, e);
    assert CallSelf(d, SelfOf(SelfCancelling, 0, false), 0).tasks == Insert(q, e);
  }

  /** The `Cancel()` of `SelfCancelling` closes Runner 0 for the first time. */
  lemma SelfCancelCancel(d: State, self: SelfRef)
    requires !d.panicking && d.closed == {} && d.nextHandle == 1
    ensures Perform(d, Cancel(0), self) == d.(closed := {0})
  {
  }

  lemma SelfCancelBody(d: State)
    requires !d.panicking && d.closed == {} && d.nextHandle == 1 && d.tasks == []
    ensures var self := SelfOf(SelfCancelling, 0, false);
      Exec(d, SelfCancelling, self) == d.(
        tasks := [Entry(d.world.now, Closure(SelfCancelling, self), 0)],
        closed := {0},
        world := d.world.(out := d.world.out + [Line("tick")]))
  {
    var self := SelfOf(SelfCancelling, 0, false);
    var e := Entry(d.world.now, Closure(SelfCancelling, self), 0);
    var d1 := d.(world := d.world.(out := d.world.out + [Line("tick")]));
    var d2 := d1.(tasks := [e]);
    var d3 := d2.(closed := {0});
    assert Perform(d, Emit("tick"), self) == d1;
    SelfCancelAgain(d1, e);
    SelfCancelCancel(d2, self);
    var b := SelfCancelling;
    assert b[1..] == [Again(0), Cancel(0)] && b[1..][1..] == [Cancel(0)] && b[1..][1..][1..] == [];
    assert Exec(d2, b[1..][1..], self) == Exec(d3, [], self);
    assert Exec(d1, b[1..], self) == Exec(d2, b[1..][1..], self);
    assert Exec(d, b, self) == Exec(d1, b[1..], self);
  }

  /** A recursive task that re-enqueues itself and then cancels its own
      Runner, like the chain of scheduler_test.go:204-208 cancelled from
      within: it runs once, and the entry its `self` queued is dropped. */
  lemma SelfCancelStops(gid: string, w: World, fuel: nat)
    requires fuel >= 2
    ensures var s := Exec(MakeTrampoline(gid, w), [ScheduleRecursive(SelfCancelling)], NoSelf);
      && !s.panicking
      && Wait(s, fuel).Drained?
      && Wait(s, fuel).state.world == w.(out := w.out + [Line("tick")])
      && 0 in Wait(s, fuel).state.closed
  {
    var self := SelfOf(SelfCancelling, 0, false);
    var e := Entry(w.now, Closure(SelfCancelling, self), 0);
    var s1 := MakeTrampoline(gid, w).(tasks := [e], nextHandle := 1);
    SelfCancelDispatch(gid, w);
    var d := s1.(tasks := [], current := Some(e));
    SelfCancelBody(d);
    assert Max(w.now, e.at) == w.now;
    assert d.(world := d.world.(now := w.now)) == d;
    var w1 := w.(out := w.out + [Line("tick")]);
    var s2 := s1.(tasks := [e], closed := {0}, world := w1);
    assert RunTask(s1) == (s2, true);
    var s3 := s2.(tasks := []);
    assert RunTask(s2) == (s3, true);
    assert Wait(s1, fuel) == Wait(s3, fuel - 2);
  }

  /** `var r Runner; Schedule(func() { r.Cancel() }); Wait()`: the task
      cancels a Runner that was never handed out, a nil `Runner` in Go, and
      the call panics; nothing is printed. */
  lemma NilRunnerPanics(gid: string, w: World, fuel: nat)
    requires fuel >= 1
    ensures var s := Exec(MakeTrampoline(gid, w), [Schedule([Cancel(1)])], NoSelf);
      && !s.panicking
      && Wait(s, fuel).Panicked?
      && Wait(s, fuel).state.world == w
  {
    var e := Entry(w.now, Closure([Cancel(1)], NoSelf), 0);
    var s0 := MakeTrampoline(gid, w);
    var q: seq<Task> := [];
    InsertAfterAllDue(q, e);
    var s1 := s0.(tasks := [e], nextHandle := 1);
    assert Perform(s0, Schedule([Cancel(1)]), NoSelf) == s1;
    assert Exec(s0, [Schedule([Cancel(1)])], NoSelf) == s1;
    var d := s1.(tasks := [], current := Some(e));
    assert Max(w.now, e.at) == w.now;
    assert d.(world := d.world.(now := w.now)) == d;
    assert Exec(d, [Cancel(1)], NoSelf) == d.(panicking := true);
    assert RunTask(s1) == (d.(panicking := true), true);
  }
}

=== FILE: examples.dfy ===
/**
 The repository's own examples, run on the model: the nested outer/inner/leaf
 dispatches and the counting chain, on the trampoline and on the immediate
 scheduler. The trampoline prints the nested example breadth-first, the
 immediate scheduler depth-first.
 */
module SchedulerExamples {
  import opened Tasks
  import opened Nesting
  import opened Trampoline
  import Immediate
  import TrampolineProperties

  const Leaf: seq<Action> := [Emit("leaf")]
  const Inner: seq<Action> := [Emit("> inner"), Schedule(Leaf), Emit("< inner")]
  const Outer: seq<Action> := [Emit("> outer"), Schedule(Inner), Emit("< outer")]
  /** The code that dispatches the outer task. */
  const Nested: seq<Action> := [Schedule(Outer)]

  lemma NestedIsPlain()
    ensures Plain(Nested)
    ensures Emits(Nested) == []
    ensures Children(Nested) == [Outer]
  {
    assert Plain(Leaf);
    assert Plain(Inner);
    assert Plain(Outer);
  }

  /** A body that prints, dispatches `child`, and prints again. */
  lemma Sandwich(before: string, child: seq<Action>, after: string)
    ensures var body := [Emit(before), Schedule(child), Emit(after)];
      && Emits(body) == [Line(before), Line(after)]
      && Children(body) == [child]
      && DepthFirst(body) == [Line(before)] + DepthFirst(child) + [Line(after)]
      && Depth(body) == 1 + Depth(child)
      && Weight(body) == 4 + Weight(child)
  {
    var body := [Emit(before), Schedule(child), Emit(after)];
    var tail := [Schedule(child), Emit(after)];
    var last := [Emit(after)];
    assert body[1..] == tail && tail[1..] == last && last[1..] == [];
    assert Emits(last) == [Line(after)] && Children(last) == [];
    assert DepthFirst(last) == [Line(after)];
    assert Depth(last[1..]) == 1 && Weight(last[1..]) == 1;
    assert Depth(last) == 1 && Weight(last) == 2;
    assert Emits(tail) == Emits(last) && Children(tail) == [child] + Children(last);
    assert DepthFirst(tail) == DepthFirst(child) + DepthFirst(last);
    assert Depth(tail) == 1 + Depth(child);
    assert Weight(tail) == 1 + Weight(child) + Weight(last);
    assert Emits(body) == [Line(before)] + Emits(tail);
    assert Children(body) == Children(tail);
    assert DepthFirst(body) == [Line(before)] + DepthFirst(tail);
  }

  lemma NestedBreadthFirst()
    ensures TotalWeight([Outer]) == 10
    ensures BreadthFirst([Outer]) ==
      [Line("> outer"), Line("< outer"), Line("> inner"), Line("< inner"), Line("leaf")]
  {
    Sandwich("> outer", Inner, "< outer");
    Sandwich("> inner", Leaf, "< inner");
    assert Leaf[1..] == [];
    assert Children(Leaf) == [] && Emits(Leaf) == [Line("leaf")] && Weight(Leaf) == 2;
    assert TotalWeight([Outer]) == Weight(Outer) + TotalWeight([]);
    assert BreadthFirst([Leaf]) == Emits(Leaf) + BreadthFirst([]);
    assert [Inner][1..] + Children(Inner) == [Leaf];
    assert BreadthFirst([Inner]) == Emits(Inner) + BreadthFirst([Leaf]);
    assert [Outer][1..] + Children(Outer) == [Inner];
    assert BreadthFirst([Outer]) == Emits(Outer) + BreadthFirst([Inner]);
  }

  /** The trampoline dispatches the outer task and prints nothing before
      `Wait`; `Wait` then prints every line of a task before the lines of
      the tasks it dispatched, and leaves nothing queued. */
  lemma TrampolineNested(gid: string, w: World, fuel: nat)
    requires fuel >= 10
    ensures var s := Exec(MakeTrampoline(gid, w), Nested, NoSelf);
      && s.world == w
      && !s.panicking
      && Wait(s, fuel).Drained?
      && Wait(s, fuel).state.world.out ==
           w.out + [Line("> outer"), Line("< outer"), Line("> inner"), Line("< inner"), Line("leaf")]
      && Count(Wait(s, fuel).state) == 0
  {
    NestedIsPlain();
    NestedBreadthFirst();
    TrampolineProperties.ScheduleThenWait(gid, w, Nested, fuel);
  }

  lemma NestedDepthFirst()
    ensures Depth(Nested) == 4
    ensures DepthFirst(Nested) ==
      [Line("> outer"), Line("> inner"), Line("leaf"), Line("< inner"), Line("< outer")]
  {
    Sandwich("> outer", Inner, "< outer");
    Sandwich("> inner", Leaf, "< inner");
    assert Leaf[1..] == [] && Nested[1..] == [];
    assert Depth(Leaf) == 1 && DepthFirst(Leaf) == [Line("leaf")];
    assert DepthFirst(Nested) == DepthFirst(Outer) + DepthFirst([]);
  }

  /** The immediate scheduler runs each task where it is dispatched, so the
      same code prints depth-first, and needs three levels of stack. */
  lemma ImmediateNested(w: World, stack: nat)
    ensures Immediate.Exec(w, Nested, Immediate.NoSelf, stack).Finished? <==> stack >= 3
    ensures stack >= 3 ==>
      Immediate.Exec(w, Nested, Immediate.NoSelf, stack).world.out ==
      w.out + [Line("> outer"), Line("> inner"), Line("leaf"), Line("< inner"), Line("< outer")]
  {
    NestedIsPlain();
    NestedDepthFirst();
    Immediate.PlainRunsDepthFirst(w, Nested, Immediate.NoSelf, stack);
  }

  /** The counting example: a recursive task prints `i` and calls `self`
      while `i < 3`. The trampoline prints 0, 1, 2 during `Wait`. */
  lemma TrampolineCounting(gid: string, w: World, fuel: nat)
    requires w.counter == 0 && fuel >= 3
    ensures var s := Exec(MakeTrampoline(gid, w), [ScheduleRecursive(CounterLoop(3, 0))], NoSelf);
      && s.world == w
      && !s.panicking
      && Wait(s, fuel).Drained?
      && Wait(s, fuel).state.world.out == w.out + [Num(0), Num(1), Num(2)]
  {
    TrampolineProperties.CountingChain(gid, w, 3, 0, 0, false, fuel);
    assert Nums(0, 3) == [Num(0), Num(1), Num(2)];
  }

  /** The immediate scheduler prints the same numbers, each run nested in
      the one before, and so needs three levels of stack. */
  lemma ImmediateCounting(w: World, stack: nat)
    requires w.counter == 0
    ensures var r := Immediate.Exec(w, [ScheduleRecursive(CounterLoop(3, 0))], Immediate.NoSelf, stack);
      && (r.Finished? <==> stack >= 3)
      && (r.Finished? ==> r.world.out == w.out + [Num(0), Num(1), Num(2)])
  {
    Immediate.CountingChain(w, 3, 0, 0, false, stack);
    assert Nums(0, 3) == [Num(0), Num(1), Num(2)];
  }
}

=== FILE: gid.dfy ===
/**
 The goroutine-id parser of gid.go. `Gid` reads the first 32 bytes of the
 calling goroutine's stack trace, which start `goroutine <id> [...`, skips the
 first 10 bytes without looking at them, takes the bytes up to the first
 space and parses them as a base-10 uint64 with `strconv.ParseUint`. Every
 failure panics.

 `runtime.Stack` is an input here: `Gid` takes the 32-byte buffer and the
 number of bytes written, and `StackBuffer` says what that buffer holds for
 a given trace. `ParseUint` follows the digit loop of Go's `strconv` for base
 10 and bit size 64, with the uint64 wrap-around of `n + d` written out.
 */
module GoroutineId {
  import opened Wrappers

  type Byte = b: int | 0 <= b < 256

  const Space: Byte := 32
  const Zero: Byte := 48
  const MaxUint64: nat := 0xFFFF_FFFF_FFFF_FFFF
  /** `maxUint64/10 + 1`: the smallest accumulator that `* 10` overflows. */
  const Cutoff: nat := MaxUint64 / 10 + 1
  /** The size of the uint64 range: additions are taken modulo it. */
  const Wrap: nat := 0x1_0000_0000_0000_0000
  /** The size of the buffer handed to `runtime.Stack`. */
  const BufferSize: nat := 32
  /** The bytes skipped before the id, the length of "goroutine ". */
  const Skip: nat := 10

  /** `UnrecognizedGID`, and the two `strconv.NumError` causes
      `ErrSyntax` and `ErrRange`. */
  datatype Error = UnrecognizedGID | ErrSyntax | ErrRange

  /** What `strconv.ParseUint` returns: a value and an optional error. */
  datatype Parsed = Parsed(value: nat, err: Option<Error>)

  /** How a call to `Gid` ends: with an id, or with a panic. */
  datatype Outcome = Id(id: nat) | Panic(cause: Error)

  predicate IsDigit(c: Byte) {
    Zero <= c <= Zero + 9
  }

  predicate AllDigits(s: seq<Byte>) {
    forall i | 0 <= i < |s| :: IsDigit(s[i])
  }

  /** The number a string of decimal digits denotes, most significant first,
      however large. */
  function DecimalValue(s: seq<Byte>): nat
    requires AllDigits(s)
  {
    if s == [] then 0 else 10 * DecimalValue(s[..|s| - 1]) + (s[|s| - 1] - Zero)
  }

  /** The decimal digits of `v`, with no leading zero. */
  function Decimal(v: nat): (r: seq<Byte>)
    ensures 1 <= |r| && AllDigits(r)
  {
    if v < 10 then [Zero + v] else Decimal(v / 10) + [Zero + v % 10]
  }

  /** The bytes of "goroutine ". */
  const Goroutine: seq<Byte> := [103, 111, 114, 111, 117, 116, 105, 110, 101, 32]

  /** How the stack trace of goroutine `v` begins. */
  function Header(v: nat): seq<Byte> {
    Goroutine + Decimal(v) + [Space]
  }

  /** The 32-byte buffer after `runtime.Stack` has written `trace` into it:
      `make([]byte, 32)` starts out zero, and the trace is cut at 32 bytes. */
  function StackBuffer(trace: seq<Byte>): (b: seq<Byte>)
    ensures |b| == BufferSize
    ensures forall i | 0 <= i < |b| :: b[i] == if i < |trace| then trace[i] else 0
  {
    if |trace| >= BufferSize then trace[..BufferSize]
    else trace + seq(BufferSize - |trace|, _ => 0)
  }

  /** The count `runtime.Stack` returns: how many bytes it wrote. */
  function Written(trace: seq<Byte>): nat {
    if |trace| < BufferSize then |trace| else BufferSize
  }

  /** `bytes.IndexByte`: the first index of `c` in `b`, or -1. */
  function IndexByte(b: seq<Byte>, c: Byte): (r: int)
    ensures -1 <= r < |b|
    ensures r == -1 <==> c !in b
    ensures r >= 0 ==> b[r] == c && forall j | 0 <= j < r :: b[j] != c
  {
    if b == [] then -1
    else if b[0] == c then 0
    else
      var k := IndexByte(b[1..], c);
      assert forall x :: x in b[1..] ==> x in b;
      assert b == [b[0]] + b[1..];
      if k == -1 then -1 else k + 1
  }

  /** The loop of `strconv.ParseUint(s, 10, 64)` from byte `i` on, with `n`
      the value of the bytes before it. The first failure ends the scan: a
      byte that is not a digit is a syntax error, an accumulator the next
      `* 10` would overflow or a sum past `MaxUint64` is a range error. */
  function Scan(s: seq<Byte>, i: nat, n: nat): (r: Parsed)
    requires i <= |s| && n <= MaxUint64
    ensures r.err != Some(UnrecognizedGID)
    ensures r.err.None? ==> AllDigits(s[i..]) && n <= r.value <= MaxUint64
    ensures r.err == Some(ErrSyntax) ==> r.value == 0 && exists j | i <= j < |s| :: !IsDigit(s[j])
    ensures r.err == Some(ErrRange) ==> r.value == MaxUint64 && i < |s|
    decreases |s| - i
  {
    if i == |s| then Parsed(n, None)
    else if !IsDigit(s[i]) then Parsed(0, Some(ErrSyntax))
    else if n >= Cutoff then Parsed(MaxUint64, Some(ErrRange))
    else
      var m := n * 10;
      var n1 := (m + (s[i] - Zero)) % Wrap;
      if n1 < m || n1 > MaxUint64 then Parsed(MaxUint64, Some(ErrRange))
      else Scan(s, i + 1, n1)
  }

  /** `strconv.ParseUint(s, 10, 64)`: the empty string is a syntax error. */
  function ParseUint(s: seq<Byte>): (r: Parsed)
    ensures r.err != Some(UnrecognizedGID)
    ensures r.err.None? ==> s != [] && AllDigits(s) && r.value <= MaxUint64
    ensures r.err == Some(ErrSyntax) ==> r.value == 0 && (s == [] || exists j | 0 <= j < |s| :: !IsDigit(s[j]))
    ensures r.err == Some(ErrRange) ==> r.value == MaxUint64 && s != []
  {
    if s == [] then Parsed(0, Some(ErrSyntax)) else Scan(s, 0, 0)
  }

  /** `Gid()`, gid.go:19-34, on the buffer `b` that `runtime.Stack` filled
      and the count `n` it returned. */
  function Gid(b: seq<Byte>, n: nat): (r: Outcome)
    requires |b| == BufferSize
    ensures n < 12 ==> r == Panic(UnrecognizedGID)
    ensures r.Id? ==> r.id <= MaxUint64
  {
    if n < 12 then Panic(UnrecognizedGID)
    else
      var rest := b[Skip..];
      var idx := IndexByte(rest, Space);
      if idx < 1 then Panic(UnrecognizedGID)
      else
        var p := ParseUint(rest[..idx]);
        ParseUintBound(rest[..idx]);
        if p.err.Some? then Panic(p.err.value) else Id(p.value)
  }

  /** `Gid()` on the goroutine whose stack trace is `trace`. */
  function GidOf(trace: seq<Byte>): Outcome {
    Gid(StackBuffer(trace), Written(trace))
  }

  // ---------------------------------------------------------------------
  // The reference reading of ParseUint

  /** The length of the run of digits `s` starts with. */
  function DigitRun(s: seq<Byte>): (k: nat)
    ensures k <= |s| && AllDigits(s[..k])
    ensures k < |s| ==> !IsDigit(s[k])
  {
    if s == [] || !IsDigit(s[0]) then 0
    else
      var k := DigitRun(s[1..]);
      assert s[..k + 1] == [s[0]] + s[1..][..k];
      k + 1
  }

  /** What `ParseUint` reports, stated without the loop: a range error when
      the leading digits already denote more than `MaxUint64`, otherwise a
      syntax error when anything but digits is present (or nothing is),
      otherwise the number the digits denote. */
  function Reference(s: seq<Byte>): Parsed {
    var k := DigitRun(s);
    if s == [] then Parsed(0, Some(ErrSyntax))
    else if DecimalValue(s[..k]) > MaxUint64 then Parsed(MaxUint64, Some(ErrRange))
    else if k < |s| then Parsed(0, Some(ErrSyntax))
    else Parsed(DecimalValue(s[..k]), None)
  }

  /** One more digit: the value of the first `i + 1` bytes. */
  lemma DecimalSnoc(s: seq<Byte>, i: nat)
    requires i < |s| && AllDigits(s[..i + 1])
    ensures AllDigits(s[..i])
    ensures DecimalValue(s[..i + 1]) == 10 * DecimalValue(s[..i]) + (s[i] - Zero)
  {
    assert s[..i + 1][..i] == s[..i];
  }

  /** A longer run of digits never denotes less. */
  lemma {:induction false} DecimalGrows(s: seq<Byte>, i: nat, j: nat)
    requires i <= j <= |s| && AllDigits(s[..j])
    ensures AllDigits(s[..i])
    ensures DecimalValue(s[..i]) <= DecimalValue(s[..j])
    decreases j - i
  {
    assert s[..j][..i] == s[..i];
    if i < j {
      DecimalSnoc(s, j - 1);
      DecimalGrows(s, i, j - 1);
    }
  }

  /** The overflow test of the loop, on uint64 values, says exactly that the
      new value passes `MaxUint64`. */
  lemma WrapCheck(n: nat, d: int)
    requires n < Cutoff && 0 <= d <= 9
    ensures var n1 := (n * 10 + d) % Wrap;
      (n1 < n * 10 || n1 > MaxUint64) <==> n * 10 + d > MaxUint64
  {
    if n * 10 + d >= Wrap {
      assert (n * 10 + d) % Wrap == n * 10 + d - Wrap;
    } else {
      assert (n * 10 + d) % Wrap == n * 10 + d;
    }
  }

  /** The scan from byte `i`, with the digits before it read correctly,
      ends the way `Reference` says. */
  lemma {:induction false} ScanMatchesReference(s: seq<Byte>, i: nat, n: nat)
    requires s != [] && i <= DigitRun(s) && n <= MaxUint64
    requires AllDigits(s[..i]) && n == DecimalValue(s[..i])
    ensures Scan(s, i, n) == Reference(s)
    decreases |s| - i
  {
    var k := DigitRun(s);
    if i == |s| {
      assert s[..i] == s;
    } else if i == k {
    } else {
      assert AllDigits(s[..i + 1]) by { assert s[..k][..i + 1] == s[..i + 1]; }
      DecimalSnoc(s, i);
      DecimalGrows(s, i + 1, k);
      if n >= Cutoff {
        assert DecimalValue(s[..i + 1]) > MaxUint64;
      } else {
        WrapCheck(n, s[i] - Zero);
        if n * 10 + (s[i] - Zero) <= MaxUint64 {
          assert (n * 10 + (s[i] - Zero)) % Wrap == DecimalValue(s[..i + 1]);
          ScanMatchesReference(s, i + 1, DecimalValue(s[..i + 1]));
        }
      }
    }
  }

  /** `ParseUint` is its reference reading on every input. */
  lemma ParseUintIsReference(s: seq<Byte>)
    ensures ParseUint(s) == Reference(s)
  {
    if s != [] {
      ScanMatchesReference(s, 0, 0);
    }
  }

  /** What `ParseUint` returns without error is a uint64. */
  lemma ParseUintBound(s: seq<Byte>)
    ensures ParseUint(s).err.None? ==> ParseUint(s).value <= MaxUint64
  {
    ParseUintIsReference(s);
  }

  /** `ParseUint` succeeds exactly on a non-empty run of digits that denotes
      at most `MaxUint64`, and then returns the number the digits denote. */
  lemma ParseUintSucceeds(s: seq<Byte>)
    ensures ParseUint(s).err.None? <==> s != [] && AllDigits(s) && DecimalValue(s) <= MaxUint64
    ensures ParseUint(s).err.None? ==> ParseUint(s).value == DecimalValue(s)
  {
    ParseUintIsReference(s);
    var k := DigitRun(s);
    if AllDigits(s) {
      AllDigitsRun(s);
      assert s[..k] == s;
    }
    if k == |s| {
      assert s[..k] == s;
    }
  }

  lemma {:induction false} AllDigitsRun(s: seq<Byte>)
    requires AllDigits(s)
    ensures DigitRun(s) == |s|
  {
    if s != [] {
      AllDigitsRun(s[1..]);
    }
  }

  // ---------------------------------------------------------------------
  // Decimal digits and the round trip

  /** `Decimal` writes `v` in digits. */
  lemma {:induction false} DecimalDenotes(v: nat)
    ensures DecimalValue(Decimal(v)) == v
  {
    if v >= 10 {
      var s := Decimal(v);
      DecimalDenotes(v / 10);
      assert s[..|s| - 1] == Decimal(v / 10);
    }
  }

  /** A number below `10^k` takes at most `k` digits. */
  lemma {:induction false} DecimalLength(v: nat, k: nat)
    requires v < Pow10(k) && k >= 1
    ensures |Decimal(v)| <= k
    decreases k
  {
    if v >= 10 {
      DecimalLength(v / 10, k - 1);
    }
  }

  /** A number of at least `10^k` takes more than `k` digits. */
  lemma {:induction false} DecimalAtLeast(v: nat, k: nat)
    requires v >= Pow10(k)
    ensures |Decimal(v)| > k
    decreases k
  {
    if k > 0 {
      DecimalAtLeast(v / 10, k - 1);
    }
  }

  function Pow10(k: nat): (r: nat)
    ensures r >= 1
  {
    if k == 0 then 1 else 10 * Pow10(k - 1)
  }

  lemma {:induction false} Pow10Add(a: nat, b: nat)
    ensures Pow10(a + b) == Pow10(a) * Pow10(b)
  {
    if a > 0 {
      Pow10Add(a - 1, b);
      assert Pow10(a + b) == 10 * Pow10(a - 1 + b);
    }
  }

  /** The uint64 range lies between `10^19` and `10^20`. */
  lemma Uint64Range()
    ensures Pow10(19) <= MaxUint64 < Pow10(20)
  {
    assert Pow10(3) == 1000;
    assert Pow10(4) == 10_000;
    Pow10Add(4, 4);
    Pow10Add(8, 8);
    Pow10Add(16, 4);
    Pow10Add(16, 3);
  }

  /** A uint64 takes at most 20 digits, and the largest takes all 20. */
  lemma Uint64Digits(v: nat)
    requires v <= MaxUint64
    ensures |Decimal(v)| <= 20
    ensures v == MaxUint64 ==> |Decimal(v)| == 20
  {
    Uint64Range();
    DecimalLength(v, 20);
    if v == MaxUint64 {
      DecimalAtLeast(v, 19);
    }
  }

  /** Parsing the digits of a uint64 gives it back. */
  lemma ParseDecimal(v: nat)
    requires v <= MaxUint64
    ensures ParseUint(Decimal(v)) == Parsed(v, None)
  {
    ParseUintSucceeds(Decimal(v));
    DecimalDenotes(v);
  }

  // ---------------------------------------------------------------------
  // Gid

  /** The id token of buffer `b` ends at byte `Skip + k`: the first space
      after the skipped bytes stands there, with one or more digits before
      it that denote at most `MaxUint64`. */
  ghost predicate IdEndsAt(b: seq<Byte>, k: nat) {
    && 1 <= k && Skip + k < |b|
    && b[Skip + k] == Space && Space !in b[Skip..Skip + k]
    && AllDigits(b[Skip..Skip + k]) && DecimalValue(b[Skip..Skip + k]) <= MaxUint64
  }

  /** `Gid` succeeds exactly when at least 12 bytes were written and the
      bytes after the first 10 hold an id token. */
  lemma GidSucceeds(b: seq<Byte>, n: nat)
    requires |b| == BufferSize
    ensures Gid(b, n).Id? <==> n >= 12 && exists k :: IdEndsAt(b, k)
  {
    if Gid(b, n).Id? {
      GidHasToken(b, n);
    }
    if n >= 12 && exists k :: IdEndsAt(b, k) {
      var k :| IdEndsAt(b, k);
      GidReadsToken(b, n, k);
    }
  }

  /** A successful `Gid` read the token up to the first space. */
  lemma GidHasToken(b: seq<Byte>, n: nat)
    requires |b| == BufferSize && Gid(b, n).Id?
    ensures var k := IndexByte(b[Skip..], Space);
      k >= 1 && IdEndsAt(b, k) && Gid(b, n).id == DecimalValue(b[Skip..Skip + k])
  {
    var rest := b[Skip..];
    var k := IndexByte(rest, Space);
    assert rest[..k] == b[Skip..Skip + k];
    ParseUintSucceeds(rest[..k]);
  }

  /** Given an id token, `Gid` returns the number it denotes. */
  lemma GidReadsToken(b: seq<Byte>, n: nat, k: nat)
    requires |b| == BufferSize && n >= 12 && IdEndsAt(b, k)
    ensures Gid(b, n) == Id(DecimalValue(b[Skip..Skip + k]))
  {
    var rest := b[Skip..];
    assert rest[..k] == b[Skip..Skip + k];
    FirstSpace(rest, k);
    ParseUintSucceeds(rest[..k]);
  }

  /** How `Gid` fails once 12 bytes were written: with `UnrecognizedGID`
      when no space follows the skipped bytes or one follows them at once,
      otherwise with the error `ParseUint` reports for the token, a range
      error when its leading digits pass `MaxUint64` and a syntax error when
      something else than a digit stands in it. */
  lemma GidPanics(b: seq<Byte>, n: nat)
    requires |b| == BufferSize && n >= 12
    ensures var k := IndexByte(b[Skip..], Space);
      && (k < 1 ==> Gid(b, n) == Panic(UnrecognizedGID))
      && (k >= 1 ==>
            var t := b[Skip..Skip + k];
            && (Gid(b, n) == Panic(ErrRange) <==> DecimalValue(t[..DigitRun(t)]) > MaxUint64)
            && (Gid(b, n) == Panic(ErrSyntax) <==> DecimalValue(t[..DigitRun(t)]) <= MaxUint64 && DigitRun(t) < |t|))
  {
    var rest := b[Skip..];
    var k := IndexByte(rest, Space);
    if k >= 1 {
      assert rest[..k] == b[Skip..Skip + k];
      ParseUintIsReference(rest[..k]);
    }
  }

  /** A space with none before it is the one `IndexByte` finds. */
  lemma FirstSpace(rest: seq<Byte>, k: nat)
    requires k < |rest| && rest[k] == Space && Space !in rest[..k]
    ensures IndexByte(rest, Space) == k
  {
    var idx := IndexByte(rest, Space);
    assert rest[k] == Space;
    assert forall j | 0 <= j < k :: rest[..k][j] == rest[j];
  }

  /** Once 12 bytes were written the count no longer matters: the search
      runs over the whole rest of the buffer. */
  lemma GidIgnoresCount(b: seq<Byte>, n: nat, n': nat)
    requires |b| == BufferSize && n >= 12 && n' >= 12
    ensures Gid(b, n) == Gid(b, n')
  {
  }

  /** Only the first 32 bytes of the trace matter. */
  lemma GidOfPrefix(trace: seq<Byte>)
    ensures GidOf(trace) == GidOf(trace[..Written(trace)])
  {
    assert StackBuffer(trace) == StackBuffer(trace[..Written(trace)]);
  }

  /** A trace shorter than 12 bytes has no id. */
  lemma GidOfShort(trace: seq<Byte>)
    requires |trace| < 12
    ensures GidOf(trace) == Panic(UnrecognizedGID)
  {
  }

  /** The round trip: the stack trace of goroutine `v`, which begins
      "goroutine ", the digits of `v` and a space, yields `v`, whatever
      follows the header. The first 10 bytes are never looked at, so any
      other 10 bytes in their place yield `v` too. */
  lemma GidOfHeader(prefix: seq<Byte>, v: nat, tail: seq<Byte>)
    requires |prefix| == Skip && v <= MaxUint64
    ensures GidOf(prefix + Decimal(v) + [Space] + tail) == Id(v)
  {
    var d := Decimal(v);
    var trace := prefix + d + [Space] + tail;
    Uint64Digits(v);
    HeaderBuffer(prefix, d, tail);
    var rest := StackBuffer(trace)[Skip..];
    FirstSpace(rest, |d|);
    ParseDecimal(v);
  }

  /** Where the digits and the space of a header land in the buffer. */
  lemma HeaderBuffer(prefix: seq<Byte>, d: seq<Byte>, tail: seq<Byte>)
    requires |prefix| == Skip && 1 <= |d| <= 20 && AllDigits(d)
    ensures var rest := StackBuffer(prefix + d + [Space] + tail)[Skip..];
      && |d| < |rest| && rest[..|d|] == d && rest[|d|] == Space && Space !in rest[..|d|]
  {
    var trace := prefix + d + [Space] + tail;
    var rest := StackBuffer(trace)[Skip..];
    assert forall i | 0 <= i < |d| :: rest[i] == d[i];
    assert rest[..|d|] == d;
    assert trace[Skip + |d|] == Space;
    assert forall i | 0 <= i < |d| :: d[i] != Space;
  }

  /** The largest id, 18446744073709551615, has a 31-byte header, which
      fits the 32-byte buffer. */
  lemma LargestId(tail: seq<Byte>)
    ensures |Header(MaxUint64)| == 31
    ensures GidOf(Header(MaxUint64) + tail) == Id(MaxUint64)
  {
    Uint64Digits(MaxUint64);
    var d := Decimal(MaxUint64);
    assert Header(MaxUint64) + tail == Goroutine + d + [Space] + tail;
    GidOfHeader(Goroutine, MaxUint64, tail);
  }
}

=== FILE: immediate.dfy ===
/**
 The Immediate scheduler of immediate.go: every dispatch runs its task in the
 caller's own goroutine before it returns, after sleeping for the delay of
 the future variants. A recursive task's `self` dispatches the task again
 straight away, so each iteration runs nested inside the one that called
 `self`. Nothing is queued and no Runner is returned.

 Go's goroutine stack is modelled by `stack`, the number of task invocations
 that may still nest; running out of it ends the run with `Overflow`.
 */
module Immediate {
  import opened Tasks
  import opened Nesting

  /** What `self` refers to inside a task body. */
  datatype SelfRef = NoSelf | SelfOf(task: seq<Action>, timed: bool)

  /** How an in-line run ends: normally, or out of stack. */
  datatype Run = Finished(world: World) | Overflow(world: World)

  /** The classification flags, immediate.go:39-49. */
  const IsAsynchronous: bool := false
  const IsSerial: bool := false
  const IsConcurrent: bool := false

  /** `time.Sleep(d)`: returns at once for a delay that is not positive. */
  function Sleep(w: World, d: int): World {
    w.(now := w.now + Pos(d))
  }

  /** `Cancel()`, immediate.go:36-37: there is never anything pending. */
  function CancelAll(w: World): (r: World)
    ensures r == w
  {
    w
  }

  /** Run a body in-line, one action after the other, stopping at an
      overflow. */
  function Exec(w: World, actions: seq<Action>, self: SelfRef, stack: nat): (r: Run)
    ensures w.out <= r.world.out && w.now <= r.world.now
    decreases stack, actions
  {
    if actions == [] then Finished(w)
    else
      match Step(w, actions[0], self, stack)
      case Overflow(w') => Overflow(w')
      case Finished(w') => Exec(w', actions[1..], self, stack)
  }

  /** One action. A dispatch (immediate.go:18-34) runs the dispatched body
      one level deeper before the caller goes on. A `Cancel` action has no
      counterpart here: the scheduler returns no Runner, so any Runner is nil
      and cancelling it panics in Go; the action finishes with the world
      unchanged instead. */
  function Step(w: World, a: Action, self: SelfRef, stack: nat): (r: Run)
    ensures w.out <= r.world.out && w.now <= r.world.now
    ensures IsDispatch(a) && stack == 0 ==> r == Overflow(w)
    ensures IsLocal(a) ==> r == Finished(Local(w, a))
    ensures a.Cancel? || (a.Again? && self.NoSelf?) ==> r == Finished(w)
    ensures r.Overflow? ==> IsDispatch(a) || a.IfBelow? || (a.Again? && self.SelfOf?)
    decreases stack, a
  {
    match a
    case IfBelow(limit, body) =>
      if w.counter < limit then Exec(w, body, self, stack) else Finished(w)
    case Schedule(body) =>
      if stack == 0 then Overflow(w) else Exec(w, body, self, stack - 1)
    case ScheduleFuture(d, body) =>
      if stack == 0 then Overflow(w) else Exec(Sleep(w, d), body, self, stack - 1)
    case ScheduleRecursive(body) =>
      if stack == 0 then Overflow(w) else Exec(w, body, SelfOf(body, false), stack - 1)
    case ScheduleFutureRecursive(d, body) =>
      if stack == 0 then Overflow(w) else Exec(Sleep(w, d), body, SelfOf(body, true), stack - 1)
    case Again(d) =>
      (match self
       case NoSelf => Finished(w)
       case SelfOf(task, timed) =>
         if stack == 0 then Overflow(w)
         else Exec(if timed then Sleep(w, d) else w, task, self, stack - 1))
    case Cancel(_) => Finished(w)
    case Emit(_) => Finished(Local(w, a))
    case EmitCounter => Finished(Local(w, a))
    case Increment => Finished(Local(w, a))
  }

  /** Continue with `rest` after a run that finished. */
  function Then(r: Run, rest: seq<Action>, self: SelfRef, stack: nat): Run {
    match r
    case Finished(w) => Exec(w, rest, self, stack)
    case Overflow(_) => r
  }

  /** A body of one action runs just that action. */
  lemma ExecSingle(w: World, a: Action, self: SelfRef, stack: nat)
    ensures Exec(w, [a], self, stack) == Step(w, a, self, stack)
  {
    assert [a][0] == a && [a][1..] == [];
    match Step(w, a, self, stack)
    case Finished(_) =>
    case Overflow(_) =>
  }

  /** Running two bodies back to back is running the first, then the
      second: nothing a body dispatches outlives it. */
  lemma {:induction false} ExecAppend(w: World, a: seq<Action>, b: seq<Action>, self: SelfRef, stack: nat)
    ensures Exec(w, a + b, self, stack) == Then(Exec(w, a, self, stack), b, self, stack)
    decreases a
  {
    if a == [] {
      assert a + b == b;
    } else {
      assert (a + b)[0] == a[0];
      assert (a + b)[1..] == a[1..] + b;
      match Step(w, a[0], self, stack)
      case Overflow(_) =>
      case Finished(w') =>
        ExecAppend(w', a[1..], b, self, stack);
    }
  }

  /** `Schedule(task)`, immediate.go:18-20: the task runs exactly once, one
      level deeper, before the dispatching code goes on. */
  lemma ScheduleRunsInline(w: World, body: seq<Action>, rest: seq<Action>, self: SelfRef, stack: nat)
    ensures Exec(w, [Schedule(body)] + rest, self, stack + 1)
      == Then(Exec(w, body, self, stack), rest, self, stack + 1)
  {
    assert ([Schedule(body)] + rest)[0] == Schedule(body);
    assert ([Schedule(body)] + rest)[1..] == rest;
    match Exec(w, body, self, stack)
    case Finished(_) =>
    case Overflow(_) =>
  }

  /** `ScheduleFuture(due, task)`, immediate.go:26-29: sleep, then run the
      task exactly once before going on. */
  lemma ScheduleFutureSleepsThenRuns(w: World, d: int, body: seq<Action>, rest: seq<Action>, self: SelfRef, stack: nat)
    ensures Exec(w, [ScheduleFuture(d, body)] + rest, self, stack + 1)
      == Then(Exec(w.(now := w.now + Pos(d)), body, self, stack), rest, self, stack + 1)
  {
    assert ([ScheduleFuture(d, body)] + rest)[0] == ScheduleFuture(d, body);
    assert ([ScheduleFuture(d, body)] + rest)[1..] == rest;
    match Exec(w.(now := w.now + Pos(d)), body, self, stack)
    case Finished(_) =>
    case Overflow(_) =>
  }

  /** Nested plain dispatches run depth-first: the whole of a dispatched
      body, its own dispatches included, prints where the dispatch stands.
      The run needs exactly as many levels of stack as dispatches nest. */
  lemma {:induction false} PlainRunsDepthFirst(w: World, body: seq<Action>, self: SelfRef, stack: nat)
    requires Plain(body)
    ensures Exec(w, body, self, stack).Finished? <==> stack + 1 >= Depth(body)
    ensures Exec(w, body, self, stack).Finished? ==>
      Exec(w, body, self, stack).world == w.(out := w.out + DepthFirst(body))
    decreases body
  {
    if body != [] {
      var rest := body[1..];
      PlainTail(body);
      if body[0].Emit? {
        PlainRunsDepthFirst(Local(w, body[0]), rest, self, stack);
        PlainEmitCase(w, body, self, stack);
      } else {
        var c := body[0].body;
        if stack > 0 {
          PlainRunsDepthFirst(w, c, self, stack - 1);
          match Exec(w, c, self, stack - 1)
          case Overflow(_) =>
            PlainScheduleCase(w, body, self, stack);
          case Finished(w') =>
            PlainRunsDepthFirst(w', rest, self, stack);
            PlainScheduleCase(w, body, self, stack);
        } else {
          PlainScheduleCase(w, body, self, stack);
        }
      }
    }
  }

  /** The print case of `PlainRunsDepthFirst`, given what the induction
      knows about the rest. */
  lemma PlainEmitCase(w: World, body: seq<Action>, self: SelfRef, stack: nat)
    requires body != [] && body[0].Emit?
    requires var rest := Exec(Local(w, body[0]), body[1..], self, stack);
      && (rest.Finished? <==> stack + 1 >= Depth(body[1..]))
      && (rest.Finished? ==> rest.world == Local(w, body[0]).(out := Local(w, body[0]).out + DepthFirst(body[1..])))
    ensures Exec(w, body, self, stack).Finished? <==> stack + 1 >= Depth(body)
    ensures Exec(w, body, self, stack).Finished? ==>
      Exec(w, body, self, stack).world == w.(out := w.out + DepthFirst(body))
  {
    assert Step(w, body[0], self, stack) == Finished(Local(w, body[0]));
    assert Depth(body) == Depth(body[1..]);
    assert DepthFirst(body) == [Line(body[0].text)] + DepthFirst(body[1..]);
  }

  /** The dispatch case of `PlainRunsDepthFirst`, given what the induction
      knows about the dispatched body and about the rest. */
  lemma PlainScheduleCase(w: World, body: seq<Action>, self: SelfRef, stack: nat)
    requires body != [] && body[0].Schedule?
    requires stack > 0 ==>
      var c := body[0].body;
      var inner := Exec(w, c, self, stack - 1);
      && (inner.Finished? <==> stack >= Depth(c))
      && (inner.Finished? ==> inner.world == w.(out := w.out + DepthFirst(c)))
      && (inner.Finished? ==>
            var rest := Exec(inner.world, body[1..], self, stack);
            && (rest.Finished? <==> stack + 1 >= Depth(body[1..]))
            && (rest.Finished? ==> rest.world == inner.world.(out := inner.world.out + DepthFirst(body[1..]))))
    ensures Exec(w, body, self, stack).Finished? <==> stack + 1 >= Depth(body)
    ensures Exec(w, body, self, stack).Finished? ==>
      Exec(w, body, self, stack).world == w.(out := w.out + DepthFirst(body))
  {
    var c := body[0].body;
    var rest := body[1..];
    PlainDispatchShape(body);
    if stack > 0 {
      DispatchThen(w, body, self, stack);
      match Exec(w, c, self, stack - 1)
      case Overflow(_) =>
      case Finished(w') =>
        assert w'.out + DepthFirst(rest) == w.out + DepthFirst(body);
    } else {
      assert Step(w, body[0], self, 0) == Overflow(w);
    }
  }

  lemma PlainDispatchShape(body: seq<Action>)
    requires body != [] && body[0].Schedule?
    ensures Depth(body) == if 1 + Depth(body[0].body) < Depth(body[1..]) then Depth(body[1..]) else 1 + Depth(body[0].body)
    ensures DepthFirst(body) == DepthFirst(body[0].body) + DepthFirst(body[1..])
  {
    assert body[0] == Schedule(body[0].body);
  }

  /** A body that opens with a dispatch runs the dispatched body one level
      deeper, then the rest. */
  lemma DispatchThen(w: World, body: seq<Action>, self: SelfRef, stack: nat)
    requires body != [] && body[0].Schedule? && stack > 0
    ensures Exec(w, body, self, stack) == Then(Exec(w, body[0].body, self, stack - 1), body[1..], self, stack)
  {
    assert Step(w, body[0], self, stack) == Exec(w, body[0].body, self, stack - 1);
    match Exec(w, body[0].body, self, stack - 1)
    case Overflow(_) =>
    case Finished(_) =>
  }

  /** The counter is printed and bumped, then the loop's branch decides. */
  lemma CounterLoopHead(w: World, n: int, d: int, self: SelfRef, stack: nat)
    ensures Exec(w, CounterLoop(n, d), self, stack)
      == Step(w.(out := w.out + [Num(w.counter)], counter := w.counter + 1), IfBelow(n, [Again(d)]), self, stack)
  {
    var body := CounterLoop(n, d);
    var w0 := w.(out := w.out + [Num(w.counter)]);
    var w1 := w0.(counter := w.counter + 1);
    assert body[0] == EmitCounter && body[1..][0] == Increment && body[1..][1..] == [IfBelow(n, [Again(d)])];
    assert Step(w, EmitCounter, self, stack) == Finished(w0);
    assert Step(w0, Increment, self, stack) == Finished(w1);
    ExecSingle(w1, IfBelow(n, [Again(d)]), self, stack);
  }

  /** The loop's branch, taken: `self(d)` runs the next iteration nested. */
  lemma CounterLoopAgain(w: World, n: int, d: int, timed: bool, stack: nat)
    requires w.counter < n
    ensures var self := SelfOf(CounterLoop(n, d), timed);
      Step(w, IfBelow(n, [Again(d)]), self, stack) ==
      if stack == 0 then Overflow(w)
      else Exec(if timed then Sleep(w, d) else w, CounterLoop(n, d), self, stack - 1)
  {
    var self := SelfOf(CounterLoop(n, d), timed);
    ExecSingle(w, Again(d), self, stack);
  }

  /** One iteration of a counting chain and all the iterations nested in it:
      it prints `i` up to `n - 1` and needs one level of stack per run. */
  lemma {:induction false} CountingChainBody(w: World, n: int, d: int, timed: bool, stack: nat)
    requires w.counter < n
    ensures var r := Exec(w, CounterLoop(n, d), SelfOf(CounterLoop(n, d), timed), stack);
      && (r.Finished? <==> stack >= n - w.counter - 1)
      && (r.Finished? ==>
            && r.world.out == w.out + Nums(w.counter, n)
            && r.world.counter == n
            && r.world.now == w.now + (n - w.counter - 1) * (if timed then Pos(d) else 0))
    decreases n - w.counter
  {
    var self := SelfOf(CounterLoop(n, d), timed);
    var j := w.counter;
    var w1 := w.(out := w.out + [Num(j)], counter := j + 1);
    CounterLoopHead(w, n, d, self, stack);
    if j + 1 < n {
      CounterLoopAgain(w1, n, d, timed, stack);
      if stack > 0 {
        var w2 := if timed then Sleep(w1, d) else w1;
        CountingChainBody(w2, n, d, timed, stack - 1);
        ChainStep(w, w2, n, (if timed then Pos(d) else 0));
      }
    } else {
      assert Step(w1, IfBelow(n, [Again(d)]), self, stack) == Finished(w1);
      assert Nums(j, n) == [Num(j)];
    }
  }

  /** The bookkeeping of one nested iteration: one more line and one more
      wait of `p`. */
  lemma ChainStep(w: World, w2: World, n: int, p: nat)
    requires w.counter + 1 < n
    requires w2.out == w.out + [Num(w.counter)] && w2.counter == w.counter + 1 && w2.now == w.now + p
    ensures w2.out + Nums(w2.counter, n) == w.out + Nums(w.counter, n)
    ensures w2.now + (n - w2.counter - 1) * p == w.now + (n - w.counter - 1) * p
  {
    assert Nums(w.counter, n) == [Num(w.counter)] + Nums(w.counter + 1, n);
    assert (n - w.counter - 1) * p == p + (n - w.counter - 2) * p;
  }

  /** `ScheduleRecursive` / `ScheduleFutureRecursive` with a body that calls
      `self` while `i < n`, immediate.go:22-34: the `n - i` runs print `i` up
      to `n - 1` in order, each one nested in the run before it, so the chain
      needs `n - i` levels of stack. Each `self(d)` sleeps again. */
  lemma CountingChain(w: World, n: int, d0: int, d: int, timed: bool, stack: nat)
    requires w.counter < n
    ensures var first := if timed then ScheduleFutureRecursive(d0, CounterLoop(n, d)) else ScheduleRecursive(CounterLoop(n, d));
      var r := Exec(w, [first], NoSelf, stack);
      && (r.Finished? <==> stack >= n - w.counter)
      && (r.Finished? ==>
            && r.world.out == w.out + Nums(w.counter, n)
            && r.world.counter == n
            && r.world.now == w.now + (if timed then Pos(d0) + (n - w.counter - 1) * Pos(d) else 0))
  {
    var first := if timed then ScheduleFutureRecursive(d0, CounterLoop(n, d)) else ScheduleRecursive(CounterLoop(n, d));
    ExecSingle(w, first, NoSelf, stack);
    if stack > 0 {
      var w' := if timed then Sleep(w, d0) else w;
      CountingChainBody(w', n, d, timed, stack - 1);
    }
  }
}

=== FILE: queue.dfy ===
/**
 The trampoline's pending-task queue (`tasks` in trampoline.go): a sequence of
 entries kept ordered by due instant, entries due at the same instant kept in
 the order they were enqueued.

 trampoline.go enqueues by appending and then calling `sort.Stable` with
 `Less(i, j) = tasks[i].at.Before(tasks[j].at)`. On a queue that is already
 ordered that amounts to a stable insertion, which is what `Insert` computes;
 `InsertIsStableSort` and `StableSortUnique` together show that it is the one
 and only result a stable sort of the appended queue can have.
 */
module TaskQueue {

  /** A queue entry, `futuretask{at, run, cancel}`: the due instant, the
      closure to run and the id of the cancel signal it watches. */
  datatype Entry<R> = Entry(at: int, run: R, cancel: nat)

  /** `Less` of trampoline.go: entry `a` is due strictly before entry `b`. */
  predicate Before<R>(a: Entry<R>, b: Entry<R>) {
    a.at < b.at
  }

  /** Ordered by due instant, ascending. */
  predicate Sorted<R>(q: seq<Entry<R>>) {
    forall i, j | 0 <= i < j < |q| :: !Before(q[j], q[i])
  }

  /** The entries of `q` due exactly at instant `t`, in queue order. Two
      queues with the same `Filter` for every instant hold the same entries
      and agree on the relative order of entries that tie. */
  function Filter<R>(q: seq<Entry<R>>, t: int): (r: seq<Entry<R>>)
    ensures |r| <= |q|
    ensures forall i | 0 <= i < |r| :: r[i].at == t
  {
    if q == [] then []
    else if q[0].at == t then [q[0]] + Filter(q[1..], t)
    else Filter(q[1..], t)
  }

  /** `r` is what a stable sort by due instant makes of `s`. */
  ghost predicate StableSortOf<R>(r: seq<Entry<R>>, s: seq<Entry<R>>) {
    Sorted(r) && forall t :: Filter(r, t) == Filter(s, t)
  }

  /** Index of the first entry due strictly after `at`, or `|q|` if none is:
      the place where a stable sort puts an entry appended with that instant. */
  function InsertionPoint<R>(q: seq<Entry<R>>, at: int): (k: nat)
    ensures k <= |q|
    ensures forall i | 0 <= i < k :: q[i].at <= at
    ensures Sorted(q) ==> forall i | k <= i < |q| :: q[i].at > at
  {
    if q == [] then 0
    else if q[0].at > at then 0
    else 1 + InsertionPoint(q[1..], at)
  }

  /** Append `e` and stably re-sort: trampoline.go:66-68, 76-77, 87-89, 96-98. */
  function Insert<R>(q: seq<Entry<R>>, e: Entry<R>): (r: seq<Entry<R>>)
    ensures |r| == |q| + 1
    ensures Sorted(q) ==> Sorted(r)
  {
    var k := InsertionPoint(q, e.at);
    var r := q[..k] + [e] + q[k..];
    InsertSplits(q, e, k, r);
    InsertKeepsOrder(q, e, k, r);
    r
  }

  /** Where the stable insertion puts `e`: behind every entry due no later
      than it and, in an ordered queue, ahead of every entry due after it.
      Taking it out again gives the old queue back, order included. */
  lemma InsertPlacement<R>(q: seq<Entry<R>>, e: Entry<R>)
    ensures exists k | 0 <= k < |Insert(q, e)| ::
      var r := Insert(q, e);
      && r[k] == e
      && r[..k] + r[k+1..] == q
      && (forall i | 0 <= i < k :: r[i].at <= e.at)
      && (Sorted(q) ==> forall i | k < i < |r| :: r[i].at > e.at)
  {
    var k := InsertionPoint(q, e.at);
    InsertSplits(q, e, k, Insert(q, e));
  }

  /** Inserting loses no entry and adds exactly `e`. */
  lemma InsertAddsOne<R>(q: seq<Entry<R>>, e: Entry<R>)
    ensures multiset(Insert(q, e)) == multiset(q) + multiset{e}
  {
    InsertSplits(q, e, InsertionPoint(q, e.at), Insert(q, e));
  }

  lemma InsertSplits<R>(q: seq<Entry<R>>, e: Entry<R>, k: nat, r: seq<Entry<R>>)
    requires k == InsertionPoint(q, e.at) && r == q[..k] + [e] + q[k..]
    ensures r[k] == e && r[..k] + r[k+1..] == q
    ensures multiset(r) == multiset(q) + multiset{e}
    ensures forall i | 0 <= i < k :: r[i].at <= e.at
    ensures Sorted(q) ==> forall i | k < i < |r| :: r[i].at > e.at
  {
    InsertShape(q, e, k, r);
    InsertBag(q, e, k, r);
    InsertBounds(q, e, k, r);
  }

  lemma InsertShape<R>(q: seq<Entry<R>>, e: Entry<R>, k: nat, r: seq<Entry<R>>)
    requires k <= |q| && r == q[..k] + [e] + q[k..]
    ensures r[k] == e && r[..k] + r[k+1..] == q
  {
    assert r[..k] == q[..k];
    assert r[k+1..] == q[k..];
    assert q[..k] + q[k..] == q;
  }

  lemma InsertBag<R>(q: seq<Entry<R>>, e: Entry<R>, k: nat, r: seq<Entry<R>>)
    requires k <= |q| && r == q[..k] + [e] + q[k..]
    ensures multiset(r) == multiset(q) + multiset{e}
  {
    assert q[..k] + q[k..] == q;
    assert multiset(q) == multiset(q[..k]) + multiset(q[k..]);
  }

  lemma InsertBounds<R>(q: seq<Entry<R>>, e: Entry<R>, k: nat, r: seq<Entry<R>>)
    requires k == InsertionPoint(q, e.at) && r == q[..k] + [e] + q[k..]
    ensures forall i | 0 <= i < k :: r[i].at <= e.at
    ensures Sorted(q) ==> forall i | k < i < |r| :: r[i].at > e.at
  {
    assert forall i | 0 <= i < k :: r[i] == q[i];
    assert forall i | k < i < |r| :: r[i] == q[i-1];
  }

  lemma InsertKeepsOrder<R>(q: seq<Entry<R>>, e: Entry<R>, k: nat, r: seq<Entry<R>>)
    requires k == InsertionPoint(q, e.at) && r == q[..k] + [e] + q[k..]
    ensures Sorted(q) ==> Sorted(r)
  {
    if Sorted(q) {
      OrderedInsert(q, e, k, r);
    }
  }

  lemma OrderedInsert<R>(q: seq<Entry<R>>, e: Entry<R>, k: nat, r: seq<Entry<R>>)
    requires k == InsertionPoint(q, e.at) && r == q[..k] + [e] + q[k..]
    requires Sorted(q)
    ensures Sorted(r)
  {
    forall i, j | 0 <= i < j < |r|
      ensures !Before(r[j], r[i])
    {
      var x := if i < k then q[i] else if i == k then e else q[i-1];
      var y := if j < k then q[j] else if j == k then e else q[j-1];
      assert r[i] == x && r[j] == y;
    }
  }

  /** A queue whose every entry is due no later than `e` grows at the back:
      with equal or elapsed due instants the trampoline is first-in first-out. */
  lemma {:induction false} InsertAfterAllDue<R>(q: seq<Entry<R>>, e: Entry<R>)
    requires forall i | 0 <= i < |q| :: q[i].at <= e.at
    ensures Insert(q, e) == q + [e]
  {
    InsertionPointPastDue(q, e.at);
    assert q[..|q|] == q;
  }

  lemma {:induction false} InsertionPointPastDue<R>(q: seq<Entry<R>>, at: int)
    requires forall i | 0 <= i < |q| :: q[i].at <= at
    ensures InsertionPoint(q, at) == |q|
  {
    if q != [] {
      assert q[0].at <= at;
      InsertionPointPastDue(q[1..], at);
    }
  }

  /** `r` splits at the popped head: the head is the entry due earliest. */
  function Pop<R>(q: seq<Entry<R>>): (r: (Entry<R>, seq<Entry<R>>))
    requires |q| > 0
    ensures [r.0] + r.1 == q
    ensures Sorted(q) ==> Sorted(r.1) && forall i | 0 <= i < |r.1| :: r.0.at <= r.1[i].at
  {
    (q[0], q[1..])
  }

  lemma {:induction false} FilterAppend<R>(a: seq<Entry<R>>, b: seq<Entry<R>>, t: int)
    ensures Filter(a + b, t) == Filter(a, t) + Filter(b, t)
  {
    if a == [] {
      assert a + b == b;
    } else {
      assert (a + b)[1..] == a[1..] + b;
      FilterAppend(a[1..], b, t);
    }
  }

  lemma {:induction false} FilterAllLater<R>(q: seq<Entry<R>>, t: int)
    requires forall i | 0 <= i < |q| :: q[i].at > t
    ensures Filter(q, t) == []
  {
    if q != [] {
      assert q[0].at > t;
      FilterAllLater(q[1..], t);
    }
  }

  /** The stable insertion is a stable sort of the queue with `e` appended. */
  lemma InsertIsStableSort<R>(q: seq<Entry<R>>, e: Entry<R>)
    requires Sorted(q)
    ensures StableSortOf(Insert(q, e), q + [e])
  {
    var k := InsertionPoint(q, e.at);
    assert Insert(q, e) == q[..k] + [e] + q[k..];
    forall t
      ensures Filter(Insert(q, e), t) == Filter(q + [e], t)
    {
      SameFilterAt(q[..k], q[k..], e, t);
      assert q[..k] + q[k..] == q;
    }
  }

  lemma SameFilterAt<R>(a: seq<Entry<R>>, b: seq<Entry<R>>, e: Entry<R>, t: int)
    requires forall i | 0 <= i < |b| :: b[i].at > e.at
    ensures Filter(a + [e] + b, t) == Filter(a + b + [e], t)
  {
    FilterAppend(a + [e], b, t);
    FilterAppend(a, [e], t);
    FilterAppend(a + b, [e], t);
    FilterAppend(a, b, t);
    if t == e.at {
      FilterAllLater(b, t);
    } else {
      assert Filter([e], t) == [];
    }
  }

  lemma {:induction false} FilterEmpty<R>(q: seq<Entry<R>>, i: int)
    requires 0 <= i < |q|
    ensures Filter(q, q[i].at) != []
  {
    if q[0].at != q[i].at {
      FilterEmpty(q[1..], i - 1);
    }
  }

  lemma {:induction false} FilterHead<R>(q: seq<Entry<R>>, t: int)
    requires Sorted(q) && Filter(q, t) != []
    ensures q[0].at <= t
  {
    if q[0].at != t {
      assert Filter(q, t) == Filter(q[1..], t);
      FilterHead(q[1..], t);
    }
  }

  /** A stable sort has only one possible outcome: two ordered queues that
      agree on the entries due at every instant are the same queue. */
  lemma {:induction false} StableSortUnique<R>(r1: seq<Entry<R>>, r2: seq<Entry<R>>, s: seq<Entry<R>>)
    requires StableSortOf(r1, s) && StableSortOf(r2, s)
    ensures r1 == r2
  {
    SameFiltersSame(r1, r2);
  }

  lemma {:induction false} SameFiltersSame<R>(a: seq<Entry<R>>, b: seq<Entry<R>>)
    requires Sorted(a) && Sorted(b)
    requires forall t :: Filter(a, t) == Filter(b, t)
    ensures a == b
    decreases |a|
  {
    if a == [] {
      if b != [] {
        FilterEmpty(b, 0);
        assert false;
      }
    } else if b == [] {
      FilterEmpty(a, 0);
      assert false;
    } else {
      FilterEmpty(a, 0);
      FilterEmpty(b, 0);
      FilterHead(b, a[0].at);
      FilterHead(a, b[0].at);
      var t := a[0].at;
      assert b[0].at == t;
      assert Filter(a, t)[0] == a[0];
      assert Filter(b, t)[0] == b[0];
      forall u
        ensures Filter(a[1..], u) == Filter(b[1..], u)
      {
        if u == t {
          assert Filter(a[1..], u) == Filter(a, u)[1..];
          assert Filter(b[1..], u) == Filter(b, u)[1..];
        } else {
          assert Filter(a[1..], u) == Filter(a, u);
          assert Filter(b[1..], u) == Filter(b, u);
        }
      }
      SameFiltersSame(a[1..], b[1..]);
      assert a == [a[0]] + a[1..];
      assert b == [b[0]] + b[1..];
    }
  }

  /** Enqueueing by stable insertion computes exactly the outcome of
      trampoline.go's append followed by `sort.Stable`. */
  lemma InsertIsTheStableSort<R>(q: seq<Entry<R>>, e: Entry<R>, r: seq<Entry<R>>)
    requires Sorted(q)
    requires StableSortOf(r, q + [e])
    ensures r == Insert(q, e)
  {
    InsertIsStableSort(q, e);
    StableSortUnique(r, Insert(q, e), q + [e]);
  }

  /** The entries of `q` that do not watch cancel signal `h`, in queue order:
      what is left of the queue when the Runner `h` is taken out of it. */
  function Drop<R>(q: seq<Entry<R>>, h: nat): (r: seq<Entry<R>>)
    ensures |r| <= |q|
    ensures forall i | 0 <= i < |r| :: r[i].cancel != h
  {
    if q == [] then []
    else (if q[0].cancel == h then [] else [q[0]]) + Drop(q[1..], h)
  }

  lemma {:induction false} DropAppend<R>(a: seq<Entry<R>>, b: seq<Entry<R>>, h: nat)
    ensures Drop(a + b, h) == Drop(a, h) + Drop(b, h)
  {
    if a == [] {
      assert a + b == b;
    } else {
      assert (a + b)[1..] == a[1..] + b;
      DropAppend(a[1..], b, h);
    }
  }

  /** Every entry left is an entry of the queue. */
  lemma {:induction false} DropMembers<R>(q: seq<Entry<R>>, h: nat)
    ensures forall x | x in Drop(q, h) :: x in q
  {
    if q != [] {
      DropMembers(q[1..], h);
      assert forall x | x in q[1..] :: x in q;
    }
  }

  /** A queue with no entry of `h` loses nothing. */
  lemma {:induction false} DropNone<R>(q: seq<Entry<R>>, h: nat)
    requires forall i | 0 <= i < |q| :: q[i].cancel != h
    ensures Drop(q, h) == q
  {
    if q != [] {
      DropNone(q[1..], h);
    }
  }

  /** A queue that starts with an entry of another Runner keeps it in front. */
  lemma DropHead<R>(q: seq<Entry<R>>, h: nat)
    requires q != [] && q[0].cancel != h
    ensures Drop(q, h) != [] && Drop(q, h)[0] == q[0] && Drop(q, h)[1..] == Drop(q[1..], h)
  {
  }

  /** Only the empty queue loses everything, among queues that do not start
      with an entry of `h`. */
  lemma DropEmpty<R>(q: seq<Entry<R>>, h: nat)
    requires q == [] || q[0].cancel != h
    ensures Drop(q, h) == [] <==> q == []
  {
  }

  /** Taking entries out keeps a queue in due order. */
  lemma {:induction false} DropSorted<R>(q: seq<Entry<R>>, h: nat)
    requires Sorted(q)
    ensures Sorted(Drop(q, h))
  {
    if q != [] {
      var d := Drop(q[1..], h);
      var tail := q[1..];
      assert Sorted(tail) by {
        forall i, j | 0 <= i < j < |tail| ensures !Before(tail[j], tail[i]) {
          assert tail[i] == q[i + 1] && tail[j] == q[j + 1];
        }
      }
      DropSorted(tail, h);
      if q[0].cancel != h {
        DropMembers(tail, h);
        var r := [q[0]] + d;
        forall i, j | 0 <= i < j < |r| ensures !Before(r[j], r[i]) {
          if i == 0 {
            assert r[j] in tail by { assert r[j] == d[j - 1]; }
            var k :| 0 <= k < |tail| && tail[k] == r[j];
            assert tail[k] == q[k + 1];
          } else {
            assert r[i] == d[i - 1] && r[j] == d[j - 1];
          }
        }
      }
    }
  }

  lemma {:induction false} InsertionPointBetween<R>(a: seq<Entry<R>>, b: seq<Entry<R>>, at: int)
    requires forall i | 0 <= i < |a| :: a[i].at <= at
    requires b != [] ==> b[0].at > at
    ensures InsertionPoint(a + b, at) == |a|
  {
    if a == [] {
      assert a + b == b;
    } else {
      assert (a + b)[1..] == a[1..] + b;
      InsertionPointBetween(a[1..], b, at);
    }
  }

  /** Between the entries due no later and those due later. */
  lemma InsertBetween<R>(a: seq<Entry<R>>, b: seq<Entry<R>>, e: Entry<R>)
    requires forall i | 0 <= i < |a| :: a[i].at <= e.at
    requires forall i | 0 <= i < |b| :: b[i].at > e.at
    ensures Insert(a + b, e) == a + [e] + b
  {
    InsertionPointBetween(a, b, e.at);
    assert (a + b)[..|a|] == a && (a + b)[|a|..] == b;
  }

  /** The entries left on either side of the insertion point keep their
      side's bound. */
  lemma DropSides<R>(q: seq<Entry<R>>, at: int, h: nat, a: seq<Entry<R>>, b: seq<Entry<R>>)
    requires Sorted(q)
    requires a == q[..InsertionPoint(q, at)] && b == q[InsertionPoint(q, at)..]
    ensures forall i | 0 <= i < |Drop(a, h)| :: Drop(a, h)[i].at <= at
    ensures forall i | 0 <= i < |Drop(b, h)| :: Drop(b, h)[i].at > at
  {
    var k := InsertionPoint(q, at);
    var da, db := Drop(a, h), Drop(b, h);
    DropMembers(a, h);
    DropMembers(b, h);
    forall i | 0 <= i < |da| ensures da[i].at <= at {
      assert da[i] in a;
      var j :| 0 <= j < |a| && a[j] == da[i];
    }
    forall i | 0 <= i < |db| ensures db[i].at > at {
      assert db[i] in b;
      var j :| 0 <= j < |b| && b[j] == db[i];
      assert b[j] == q[k + j];
    }
  }

  /** Enqueueing commutes with taking a Runner out: an entry of `h` is taken
      out again, any other lands where it would have landed anyway. */
  lemma DropInsert<R>(q: seq<Entry<R>>, e: Entry<R>, h: nat)
    requires Sorted(q)
    ensures Drop(Insert(q, e), h) == if e.cancel == h then Drop(q, h) else Insert(Drop(q, h), e)
  {
    var k := InsertionPoint(q, e.at);
    var a, b := q[..k], q[k..];
    assert Insert(q, e) == a + [e] + b;
    assert q == a + b;
    DropAppend(a + [e], b, h);
    DropAppend(a, [e], h);
    DropAppend(a, b, h);
    assert [e][1..] == [];
    assert Drop([e], h) == if e.cancel == h then [] else [e];
    if e.cancel != h {
      DropSides(q, e.at, h, a, b);
      InsertBetween(Drop(a, h), Drop(b, h), e);
    }
  }
}

=== FILE: tasks.dfy ===
/**
 Task bodies as data. A Go task is a closure; here it is a list of actions
 drawn from what the repository's examples do inside their tasks: print a
 line, print or bump the shared counter `i`, branch on `i < limit`, dispatch
 another task through one of the four scheduling calls, call the `self`
 capability of a recursive task, or cancel a Runner.

 Both schedulers interpret the same actions, so their output traces can be
 compared: the trampoline runs nested dispatches breadth-first, the immediate
 scheduler depth-first.
 */
module Tasks {

  /** One printed line. */
  datatype Out = Line(text: string) | Num(value: int)

  datatype Action =
    | Emit(text: string)                  // fmt.Println(text)
    | EmitCounter                         // fmt.Println(i)
    | Increment                           // i++
    | IfBelow(limit: int, body: seq<Action>)   // if i < limit { body }
    | Schedule(body: seq<Action>)
    | ScheduleFuture(delay: int, body: seq<Action>)
    | ScheduleRecursive(body: seq<Action>)
    | ScheduleFutureRecursive(delay: int, body: seq<Action>)
      /** `self()` of a ScheduleRecursive task is `Again(0)`; the delay only
          matters for the `self(d)` of a ScheduleFutureRecursive task. */
    | Again(delay: int)
      /** `Cancel()` on the Runner the `handle`-th scheduling call returned. */
    | Cancel(handle: nat)

  /** What task bodies touch besides the scheduler: the clock, the counter
      `i` of the examples, and everything printed so far. */
  datatype World = World(now: int, counter: int, out: seq<Out>)

  /** How far the clock moves when waiting `d` from now: not at all for a
      delay that is not positive. */
  function Pos(d: int): nat {
    if d <= 0 then 0 else d
  }

  /** Actions that do not involve the scheduler. */
  predicate IsLocal(a: Action) {
    a.Emit? || a.EmitCounter? || a.Increment?
  }

  /** The four scheduling calls. */
  predicate IsDispatch(a: Action) {
    a.Schedule? || a.ScheduleFuture? || a.ScheduleRecursive? || a.ScheduleFutureRecursive?
  }

  /** Whether a scheduling call is one of the two with a delay. */
  predicate IsFuture(a: Action) {
    a.ScheduleFuture? || a.ScheduleFutureRecursive?
  }

  /** Whether a scheduling call hands its task the `self` capability. */
  predicate IsRecursive(a: Action) {
    a.ScheduleRecursive? || a.ScheduleFutureRecursive?
  }

  /** A local action takes no time and prints at most one line. */
  function Local(w: World, a: Action): (r: World)
    requires IsLocal(a)
    ensures r.now == w.now
    ensures |w.out| <= |r.out| <= |w.out| + 1 && r.out[..|w.out|] == w.out
    ensures r.counter != w.counter <==> a.Increment?
  {
    match a
    case Emit(t) => w.(out := w.out + [Line(t)])
    case EmitCounter => w.(out := w.out + [Num(w.counter)])
    case Increment => w.(counter := w.counter + 1)
  }

  /** The body of the repository's counting examples,
      `fmt.Println(i); i++; if i < n { self() }`, or `self(d)` when the task
      was dispatched with ScheduleFutureRecursive. */
  function CounterLoop(n: int, d: int): seq<Action> {
    [EmitCounter, Increment, IfBelow(n, [Again(d)])]
  }

  /** The lines `from`, `from + 1`, ..., `to - 1`. */
  function Nums(from: int, to: int): (r: seq<Out>)
    decreases if from <= to then to - from else 0
    ensures |r| == if from <= to then to - from else 0
    ensures forall i | 0 <= i < |r| :: r[i] == Num(from + i)
  {
    if from >= to then [] else [Num(from)] + Nums(from + 1, to)
  }

  lemma {:induction false} NumsSnoc(from: int, to: int)
    requires from <= to
    ensures Nums(from, to) + [Num(to)] == Nums(from, to + 1)
  {
    assert Nums(from, to) + [Num(to)] == Nums(from, to + 1);
  }
}

/**
 Reference orders for nested dispatch. A body is plain when it only prints
 lines and dispatches further plain bodies with `Schedule`, as the nested
 outer/inner/leaf examples of the repository do. For plain bodies the two
 schedulers differ only in the order the lines come out: the trampoline
 prints them breadth-first, the immediate scheduler depth-first.
 */
module Nesting {
  import opened Tasks

  predicate Plain(body: seq<Action>)
    decreases body
  {
    forall i | 0 <= i < |body| :: body[i].Emit? || (body[i].Schedule? && Plain(body[i].body))
  }

  lemma PlainTail(body: seq<Action>)
    requires body != [] && Plain(body)
    ensures Plain(body[1..])
    ensures body[0].Emit? || (body[0].Schedule? && Plain(body[0].body))
  {
    var rest := body[1..];
    forall i | 0 <= i < |rest|
      ensures rest[i].Emit? || (rest[i].Schedule? && Plain(rest[i].body))
    {
      assert rest[i] == body[i + 1];
    }
  }

  lemma {:induction false} PlainChildren(body: seq<Action>)
    requires Plain(body)
    ensures forall i | 0 <= i < |Children(body)| :: Plain(Children(body)[i])
    decreases body
  {
    if body != [] {
      PlainTail(body);
      PlainChildren(body[1..]);
    }
  }

  /** The lines a body prints itself, leaving out what it dispatches. */
  function Emits(body: seq<Action>): seq<Out> {
    if body == [] then []
    else (if body[0].Emit? then [Line(body[0].text)] else []) + Emits(body[1..])
  }

  /** The bodies a body dispatches with `Schedule`, in dispatch order. */
  function Children(body: seq<Action>): seq<seq<Action>> {
    if body == [] then []
    else (if body[0].Schedule? then [body[0].body] else []) + Children(body[1..])
  }

  /** A size that every body outweighs all of its children together. */
  function Weight(body: seq<Action>): (n: nat)
    ensures n >= 1
    decreases body
  {
    if body == [] then 1
    else (if body[0].Schedule? then 1 + Weight(body[0].body) else 1) + Weight(body[1..])
  }

  function TotalWeight(bodies: seq<seq<Action>>): nat {
    if bodies == [] then 0 else Weight(bodies[0]) + TotalWeight(bodies[1..])
  }

  lemma {:induction false} TotalWeightAppend(a: seq<seq<Action>>, b: seq<seq<Action>>)
    ensures TotalWeight(a + b) == TotalWeight(a) + TotalWeight(b)
  {
    if a != [] {
      assert (a + b)[1..] == a[1..] + b;
      TotalWeightAppend(a[1..], b);
    } else {
      assert a + b == b;
    }
  }

  lemma {:induction false} ChildrenLighter(body: seq<Action>)
    ensures TotalWeight(Children(body)) < Weight(body)
    decreases body
  {
    if body != [] {
      ChildrenLighter(body[1..]);
      if body[0].Schedule? {
        TotalWeightAppend([body[0].body], Children(body[1..]));
      } else {
        assert Children(body) == Children(body[1..]);
      }
    }
  }

  /** Lines in breadth-first order: the first queued body prints its own
      lines, and the bodies it dispatches join the back of the queue. */
  function BreadthFirst(queue: seq<seq<Action>>): seq<Out>
    decreases TotalWeight(queue)
  {
    if queue == [] then []
    else
      ChildrenLighter(queue[0]);
      TotalWeightAppend(queue[1..], Children(queue[0]));
      Emits(queue[0]) + BreadthFirst(queue[1..] + Children(queue[0]))
  }

  /** Lines in depth-first order: a dispatched body prints all of its lines,
      its own dispatches included, where the dispatch stands. */
  function DepthFirst(body: seq<Action>): seq<Out>
    decreases body
  {
    if body == [] then []
    else
      (match body[0]
       case Emit(t) => [Line(t)]
       case Schedule(b) => DepthFirst(b)
       case _ => [])
      + DepthFirst(body[1..])
  }

  /** How deeply plain dispatches nest: a body with no dispatch is 1 deep. */
  function Depth(body: seq<Action>): (d: nat)
    ensures d >= 1
    decreases body
  {
    if body == [] then 1
    else
      var here := if body[0].Schedule? then 1 + Depth(body[0].body) else 1;
      var rest := Depth(body[1..]);
      if here < rest then rest else here
  }
}

=== FILE: trampoline.dfy ===
/**
 The serial Trampoline scheduler of trampoline.go.

 The scheduler owns a queue of `futuretask{at, run, cancel}` entries kept in
 due order. Every scheduling call inserts one entry and returns its Runner;
 nothing runs until the owner drains the queue with `Wait` (or steps it with
 `Gosched`). `RunTask` pops the head entry, marks it as current, waits until
 it is due and runs it unless its cancel signal was closed.

 A recursive task's `self` capability inserts a further entry that reuses the
 same body and the same cancel signal, so a chain of iterations becomes a
 sequence of queue entries instead of nested calls.

 Time is an integer instant. Task bodies take no time; the clock moves only
 while `RunTask` waits for a due instant. A Runner is identified by the number
 of the scheduling call that created it, and a closed cancel channel by that
 number being in `closed`.
 */
module Trampoline {
  import opened Tasks
  import opened TaskQueue
  import opened Wrappers

  /** What `self` refers to inside a task body: nothing, or the chain of the
      enclosing recursive task (its body, its cancel signal, and whether its
      `self` takes a delay). Nested bodies inherit it, as Go closures do. */
  datatype SelfRef =
    | NoSelf
    | SelfOf(task: seq<Action>, cancel: nat, timed: bool)

  /** The `run` closure of a queue entry. */
  datatype Closure = Closure(body: seq<Action>, self: SelfRef)

  type Task = Entry<Closure>

  /** The `trampoline` struct plus what its tasks observe: the cancel
      channels closed so far, the number of Runners handed out, the world
      the task bodies act on, and whether a panic is unwinding. */
  datatype State = State(
    gid: string,
    tasks: seq<Task>,
    current: Option<Task>,
    closed: set<nat>,
    nextHandle: nat,
    world: World,
    panicking: bool)

  /** The queue is in due order and only existing Runners can be closed. */
  predicate Valid(s: State) {
    && Sorted(s.tasks)
    && (forall h | h in s.closed :: h < s.nextHandle)
  }

  /** The scheduler runs every task on its owner's goroutine. */
  const IsConcurrent: bool := false

  function Max(a: int, b: int): int {
    if a < b then b else a
  }

  /** `MakeTrampoline()` on the goroutine `gid`. */
  function MakeTrampoline(gid: string, w: World): (s: State)
    ensures Valid(s) && !s.panicking
    ensures Count(s) == 0
  {
    State(gid, [], None, {}, 0, w, false)
  }

  /** Queued tasks, plus the one being waited on or run. */
  function Count(s: State): (n: nat)
    ensures |s.tasks| <= n <= |s.tasks| + 1
    ensures n == |s.tasks| <==> s.current.None?
  {
    if s.current.None? then |s.tasks| else |s.tasks| + 1
  }

  /** Create a Runner and insert its first entry, due at `at`. Nothing runs,
      and nothing but the queue and the Runner count changes; `NewTaskAddsOne`
      shows that the queue gains exactly the new entry, and `NewTaskAtBack`
      where it goes when everything queued is already due. */
  function NewTask(s: State, at: int, body: seq<Action>, self: SelfRef): (r: (State, nat))
    ensures r.1 == s.nextHandle && r.0.nextHandle == r.1 + 1
    ensures Valid(s) ==> Valid(r.0) && r.1 !in r.0.closed
    ensures |r.0.tasks| == |s.tasks| + 1
    ensures r.0.world == s.world && r.0.current == s.current && r.0.closed == s.closed
    ensures r.0.gid == s.gid && r.0.panicking == s.panicking
  {
    var h := s.nextHandle;
    (s.(tasks := Insert(s.tasks, Entry(at, Closure(body, self), h)), nextHandle := h + 1), h)
  }

  /** Every queued entry stays queued, and the new one joins them. */
  lemma NewTaskAddsOne(s: State, at: int, body: seq<Action>, self: SelfRef)
    ensures multiset(NewTask(s, at, body, self).0.tasks) ==
      multiset(s.tasks) + multiset{Entry(at, Closure(body, self), s.nextHandle)}
  {
    InsertAddsOne(s.tasks, Entry(at, Closure(body, self), s.nextHandle));
  }

  /** With every queued entry already due, the new one goes to the back:
      the trampoline is first-in first-out for tasks that are due. */
  lemma NewTaskAtBack(s: State, at: int, body: seq<Action>, self: SelfRef)
    requires forall i | 0 <= i < |s.tasks| :: s.tasks[i].at <= at
    ensures NewTask(s, at, body, self).0.tasks == s.tasks + [Entry(at, Closure(body, self), s.nextHandle)]
  {
    InsertAfterAllDue(s.tasks, Entry(at, Closure(body, self), s.nextHandle));
  }

  /** `Schedule(task)`, trampoline.go:65-70: due now. */
  function Schedule(s: State, body: seq<Action>, self: SelfRef): (r: (State, nat))
    ensures r.1 == s.nextHandle
    ensures multiset(r.0.tasks) == multiset(s.tasks) + multiset{Entry(s.world.now, Closure(body, self), s.nextHandle)}
    ensures r.0.world == s.world && r.0.current == s.current
    ensures Valid(s) ==> Valid(r.0) && r.1 !in r.0.closed
  {
    NewTaskAddsOne(s, s.world.now, body, self);
    NewTask(s, s.world.now, body, self)
  }

  /** `ScheduleFuture(due, task)`, trampoline.go:86-91: due at now + delay. */
  function ScheduleFuture(s: State, delay: int, body: seq<Action>, self: SelfRef): (r: (State, nat))
    ensures r.1 == s.nextHandle
    ensures multiset(r.0.tasks) == multiset(s.tasks) + multiset{Entry(s.world.now + delay, Closure(body, self), s.nextHandle)}
    ensures r.0.world == s.world && r.0.current == s.current
    ensures Valid(s) ==> Valid(r.0) && r.1 !in r.0.closed
  {
    var at := s.world.now + delay;
    NewTaskAddsOne(s, at, body, self);
    NewTask(s, at, body, self)
  }

  /** `ScheduleRecursive(task)`, trampoline.go:72-84: the first entry is due
      now, and its `self` names the chain's own Runner. */
  function ScheduleRecursive(s: State, body: seq<Action>): (r: (State, nat))
    ensures r.1 == s.nextHandle
    ensures multiset(r.0.tasks) ==
      multiset(s.tasks) + multiset{Entry(s.world.now, Closure(body, SelfOf(body, s.nextHandle, false)), s.nextHandle)}
    ensures r.0.world == s.world && r.0.current == s.current
    ensures Valid(s) ==> Valid(r.0) && r.1 !in r.0.closed
  {
    NewTaskAddsOne(s, s.world.now, body, SelfOf(body, s.nextHandle, false));
    NewTask(s, s.world.now, body, SelfOf(body, s.nextHandle, false))
  }

  /** `ScheduleFutureRecursive(due, task)`, trampoline.go:93-105. */
  function ScheduleFutureRecursive(s: State, delay: int, body: seq<Action>): (r: (State, nat))
    ensures r.1 == s.nextHandle
    ensures multiset(r.0.tasks) ==
      multiset(s.tasks) + multiset{Entry(s.world.now + delay, Closure(body, SelfOf(body, s.nextHandle, true)), s.nextHandle)}
    ensures r.0.world == s.world && r.0.current == s.current
    ensures Valid(s) ==> Valid(r.0) && r.1 !in r.0.closed
  {
    var at := s.world.now + delay;
    NewTaskAddsOne(s, at, body, SelfOf(body, s.nextHandle, true));
    NewTask(s, at, body, SelfOf(body, s.nextHandle, true))
  }

  /** Calling `self` (trampoline.go:74-78, 95-99): insert one more entry of
      the same chain, with the same body and the same cancel signal, and hand
      out no new Runner. Outside a recursive task there is no `self`. */
  function CallSelf(s: State, self: SelfRef, delay: int): (r: State)
    ensures self.NoSelf? ==> r == s
    ensures self.SelfOf? ==> |r.tasks| == |s.tasks| + 1
    ensures r == s.(tasks := r.tasks)
    ensures Valid(s) ==> Valid(r)
  {
    match self
    case NoSelf => s
    case SelfOf(task, cancel, timed) =>
      var at := if timed then s.world.now + delay else s.world.now;
      s.(tasks := Insert(s.tasks, Entry(at, Closure(task, self), cancel)))
  }

  /** A `self` call queues exactly one more entry of the chain, with the
      chain's body and cancel signal. */
  lemma CallSelfAddsOne(s: State, self: SelfRef, delay: int)
    requires self.SelfOf?
    ensures var at := if self.timed then s.world.now + delay else s.world.now;
      multiset(CallSelf(s, self, delay).tasks) ==
      multiset(s.tasks) + multiset{Entry(at, Closure(self.task, self), self.cancel)}
  {
    var at := if self.timed then s.world.now + delay else s.world.now;
    var e := Entry(at, Closure(self.task, self), self.cancel);
    assert CallSelf(s, self, delay).tasks == Insert(s.tasks, e);
    InsertAddsOne(s.tasks, e);
  }

  /** `Runner.Cancel()`, trampoline.go:18-22: close the cancel channel.
      Closing a channel twice panics in Go. A handle not handed out yet
      stands for a `Runner` variable still nil, and calling `Cancel` on it
      panics as well. */
  function CancelRunner(s: State, h: nat): (r: State)
    ensures r.tasks == s.tasks && r.world == s.world && r.current == s.current
    ensures r.closed == if h < s.nextHandle then s.closed + {h} else s.closed
    ensures r.panicking <==> s.panicking || h >= s.nextHandle || h in s.closed
    ensures Valid(s) ==> Valid(r)
  {
    if h >= s.nextHandle then s.(panicking := true)
    else if h in s.closed then s.(panicking := true)
    else s.(closed := s.closed + {h})
  }

  /** The instant a scheduling call made at `now` sets its task due. */
  function DueAt(now: int, a: Action): int
    requires IsDispatch(a)
  {
    if IsFuture(a) then now + a.delay else now
  }

  /** What `self` refers to in the task a scheduling call queues: the
      Runner `h` it creates for a recursive call, otherwise the `self` of the
      code that makes the call. */
  function SelfFor(a: Action, h: nat, self: SelfRef): SelfRef
    requires IsDispatch(a)
  {
    if IsRecursive(a) then SelfOf(a.body, h, IsFuture(a)) else self
  }

  /** One action, in the context of `self`. A branch runs its body in place;
      a scheduling call is `Schedule`, `ScheduleFuture`, `ScheduleRecursive`
      or `ScheduleFutureRecursive` above. */
  function Perform(s: State, a: Action, self: SelfRef): (r: State)
    ensures Valid(s) ==> Valid(r)
    ensures r.current == s.current && r.gid == s.gid && r.world.now == s.world.now
    ensures s.world.out <= r.world.out
    ensures |s.tasks| <= |r.tasks|
    ensures s.closed <= r.closed && s.nextHandle <= r.nextHandle
    ensures s.panicking ==> r == s
    decreases a
  {
    if s.panicking then s
    else if IsLocal(a) then s.(world := Local(s.world, a))
    else if IsDispatch(a) then NewTask(s, DueAt(s.world.now, a), a.body, SelfFor(a, s.nextHandle, self)).0
    else match a
      case IfBelow(limit, body) => if s.world.counter < limit then Exec(s, body, self) else s
      case Again(d) => CallSelf(s, self, d)
      case Cancel(h) => CancelRunner(s, h)
  }

  /** Run a task body. It never runs another task: whatever it dispatches
      only lands in the queue. A panic skips the rest of the body. */
  function Exec(s: State, actions: seq<Action>, self: SelfRef): (r: State)
    ensures Valid(s) ==> Valid(r)
    ensures r.current == s.current && r.gid == s.gid && r.world.now == s.world.now
    ensures s.world.out <= r.world.out
    ensures |s.tasks| <= |r.tasks|
    ensures s.closed <= r.closed && s.nextHandle <= r.nextHandle
    ensures s.panicking ==> r == s
    decreases actions
  {
    if actions == [] then s
    else Exec(Perform(s, actions[0], self), actions[1..], self)
  }

  /** A scheduling action of a task body is the matching call of
      trampoline.go:65-105, made with the body's own `self`. These four
      lemmas state no behaviour of their own: they tie the interpreter's
      dispatch branch to the API functions, so that the facts proved about
      `Schedule` and its siblings apply to the actions of a task body. */
  lemma PerformIsSchedule(s: State, body: seq<Action>, self: SelfRef)
    requires !s.panicking
    ensures Perform(s, Action.Schedule(body), self) == Schedule(s, body, self).0
  {
  }

  lemma PerformIsScheduleFuture(s: State, d: int, body: seq<Action>, self: SelfRef)
    requires !s.panicking
    ensures Perform(s, Action.ScheduleFuture(d, body), self) == ScheduleFuture(s, d, body, self).0
  {
  }

  lemma PerformIsScheduleRecursive(s: State, body: seq<Action>, self: SelfRef)
    requires !s.panicking
    ensures Perform(s, Action.ScheduleRecursive(body), self) == ScheduleRecursive(s, body).0
  {
  }

  lemma PerformIsScheduleFutureRecursive(s: State, d: int, body: seq<Action>, self: SelfRef)
    requires !s.panicking
    ensures Perform(s, Action.ScheduleFutureRecursive(d, body), self) == ScheduleFutureRecursive(s, d, body).0
  {
  }

  /** An action never drops a queued entry. */
  lemma {:induction false} PerformKeepsQueued(s: State, a: Action, self: SelfRef)
    ensures multiset(s.tasks) <= multiset(Perform(s, a, self).tasks)
    decreases a
  {
    if s.panicking || IsLocal(a) || a.Cancel? {
    } else if a.IfBelow? {
      if s.world.counter < a.limit {
        ExecKeepsQueued(s, a.body, self);
      }
    } else if a.Again? {
      AgainKeepsQueued(s, a.delay, self);
    } else if IsDispatch(a) {
      DispatchKeepsQueued(s, a, self);
    }
  }

  lemma AgainKeepsQueued(s: State, d: int, self: SelfRef)
    requires !s.panicking
    ensures multiset(s.tasks) <= multiset(Perform(s, Again(d), self).tasks)
  {
    assert Perform(s, Again(d), self) == CallSelf(s, self, d);
    if self.SelfOf? {
      CallSelfAddsOne(s, self, d);
    }
  }

  lemma DispatchKeepsQueued(s: State, a: Action, self: SelfRef)
    requires !s.panicking && IsDispatch(a)
    ensures multiset(s.tasks) <= multiset(Perform(s, a, self).tasks)
  {
    NewTaskAddsOne(s, DueAt(s.world.now, a), a.body, SelfFor(a, s.nextHandle, self));
  }

  /** Running a body never drops a queued entry: whatever was pending
      before is still pending after, next to what the body dispatched. */
  lemma {:induction false} ExecKeepsQueued(s: State, actions: seq<Action>, self: SelfRef)
    ensures multiset(s.tasks) <= multiset(Exec(s, actions, self).tasks)
    decreases actions
  {
    if actions != [] {
      var s' := Perform(s, actions[0], self);
      PerformKeepsQueued(s, actions[0], self);
      ExecKeepsQueued(s', actions[1..], self);
    }
  }

  /** `ShortWaitAndRun`/`LongWaitAndRun`, trampoline.go:136-172: a task whose
      cancel channel is closed is dropped at once; any other waits until it
      is due and then runs exactly once. */
  function WaitAndRun(s: State, t: Task): (r: State)
    ensures t.cancel in s.closed ==> r == s
    ensures t.cancel !in s.closed ==> r.world.now == Max(s.world.now, t.at)
    ensures Valid(s) ==> Valid(r)
    ensures r.current == s.current && r.gid == s.gid && r.world.now >= s.world.now
    ensures s.world.out <= r.world.out
    ensures |s.tasks| <= |r.tasks|
    ensures s.closed <= r.closed && s.nextHandle <= r.nextHandle
  {
    if t.cancel in s.closed then s
    else Exec(s.(world := s.world.(now := Max(s.world.now, t.at))), t.run.body, t.run.self)
  }

  /** The state a popped task waits and runs in, trampoline.go:125-126: the
      head leaves the queue and becomes `current`, so `Count` goes on
      including it until it has run. */
  function Dispatch(s: State): (r: State)
    requires s.tasks != []
    ensures r.tasks == s.tasks[1..] && r.current == Some(s.tasks[0])
    ensures s.current == None ==> Count(r) == Count(s)
    ensures Valid(s) ==> Valid(r)
    ensures r.world == s.world && r.closed == s.closed && r.nextHandle == s.nextHandle
    ensures r.gid == s.gid && r.panicking == s.panicking
  {
    s.(tasks := Pop(s.tasks).1, current := Some(Pop(s.tasks).0))
  }

  /** `RunTask()`, trampoline.go:121-134. On an empty queue it reports false
      and changes nothing; otherwise it removes exactly the head entry, which
      is the one due earliest, and leaves `current` empty again unless the
      task panicked. */
  function RunTask(s: State): (r: (State, bool))
    requires !s.panicking
    ensures !r.1 <==> s.tasks == []
    ensures !r.1 ==> r.0 == s
    ensures r.1 && !r.0.panicking ==> r.0.current == None
    ensures r.1 && r.0.panicking ==> r.0.current == Some(s.tasks[0])
    ensures r.1 && s.tasks[0].cancel in s.closed ==> r.0 == s.(tasks := s.tasks[1..], current := None)
    ensures r.1 && s.tasks[0].cancel !in s.closed ==> r.0.world.now == Max(s.world.now, s.tasks[0].at)
    ensures Valid(s) ==> Valid(r.0)
    ensures s.world.out <= r.0.world.out && s.world.now <= r.0.world.now
    ensures s.closed <= r.0.closed && s.nextHandle <= r.0.nextHandle && r.0.gid == s.gid
  {
    if |s.tasks| == 0 then (s, false)
    else
      var after := WaitAndRun(Dispatch(s), s.tasks[0]);
      (if after.panicking then after else after.(current := None), true)
  }

  /** `RunTask` removes the head entry and nothing else: every other
      pending entry is still queued afterwards. */
  lemma RunTaskKeepsRest(s: State)
    requires !s.panicking && s.tasks != []
    ensures multiset(s.tasks[1..]) <= multiset(RunTask(s).0.tasks)
  {
    var t := s.tasks[0];
    var d := Dispatch(s);
    if t.cancel !in s.closed {
      ExecKeepsQueued(d.(world := d.world.(now := Max(d.world.now, t.at))), t.run.body, t.run.self);
    }
  }

  /** How a drain ends: the queue ran empty, a task panicked, or the model's
      bound on the number of tasks to run was reached. */
  datatype Drain = Drained(state: State) | Panicked(state: State) | OutOfFuel(state: State)

  /** `Wait()`, trampoline.go:107-110: run tasks until the queue is empty,
      including the tasks that running tasks add. `fuel` bounds the number
      of tasks run, since a chain that keeps calling `self` never ends. */
  function Wait(s: State, fuel: nat): (r: Drain)
    requires !s.panicking
    ensures r.Drained? ==> r.state.tasks == [] && !r.state.panicking
    ensures r.Drained? && s.current == None ==> Count(r.state) == 0
    ensures r.Panicked? ==> r.state.panicking
    ensures r.OutOfFuel? ==> r.state.tasks != [] && !r.state.panicking
    ensures Valid(s) ==> Valid(r.state)
    ensures s.world.out <= r.state.world.out && s.world.now <= r.state.world.now
    ensures r.state.gid == s.gid
    ensures s.closed <= r.state.closed
    decreases fuel
  {
    if s.tasks != [] && fuel == 0 then OutOfFuel(s)
    else
      var (s', ran) := RunTask(s);
      if !ran then Drained(s')
      else if s'.panicking then Panicked(s')
      else Wait(s', fuel - 1)
  }

  /** `Gosched()`, trampoline.go:112-119: on the owner goroutine, run one
      queued task; elsewhere, or with nothing queued, only yield. `caller` is
      the id of the calling goroutine. */
  function Gosched(s: State, caller: string): (r: State)
    requires !s.panicking
    ensures (|s.gid| > 0 && s.gid == caller) ==> r == RunTask(s).0
    ensures r != s ==> |s.gid| > 0 && s.gid == caller && s.tasks != []
  {
    if |s.gid| > 0 && s.gid == caller then
      var (s', ran) := RunTask(s);
      if ran then s' else s
    else s
  }
}

=== FILE: trampoline_props.dfy ===
/**
 What draining the trampoline prints: nested plain dispatches come out
 breadth-first, a counting chain runs once per `self` call plus once, a
 cancelled Runner never runs, and tasks come out in due order.
 */
module TrampolineProperties {
  import opened Tasks
  import opened Nesting
  import opened TaskQueue
  import opened Trampoline
  import opened Wrappers

  /** Fresh entries, due at `at`, for the bodies a task dispatched, with the
      Runners `h`, `h + 1`, ... in dispatch order. */
  function Spawn(bodies: seq<seq<Action>>, at: int, self: SelfRef, h: nat): (r: seq<Task>)
    ensures |r| == |bodies|
    ensures forall i | 0 <= i < |r| :: r[i] == Entry(at, Closure(bodies[i], self), h + i)
  {
    if bodies == [] then [] else [Entry(at, Closure(bodies[0], self), h)] + Spawn(bodies[1..], at, self, h + 1)
  }

  /** The bodies of the queued tasks, in queue order. */
  function Bodies(q: seq<Task>): (r: seq<seq<Action>>)
    ensures |r| == |q|
    ensures forall i | 0 <= i < |q| :: r[i] == q[i].run.body
  {
    if q == [] then [] else [q[0].run.body] + Bodies(q[1..])
  }

  lemma BodiesAppend(a: seq<Task>, b: seq<Task>)
    ensures Bodies(a + b) == Bodies(a) + Bodies(b)
  {
  }

  lemma ExecStep(s: State, actions: seq<Action>, self: SelfRef)
    requires actions != []
    ensures Exec(s, actions, self) == Exec(Perform(s, actions[0], self), actions[1..], self)
  {
  }

  /** Every queued task is plain, already due and not cancelled. */
  predicate PlainPending(s: State) {
    forall i | 0 <= i < |s.tasks| ::
      && Plain(s.tasks[i].run.body)
      && s.tasks[i].at <= s.world.now
      && s.tasks[i].cancel !in s.closed
  }

  /** Printing a line changes nothing but the output. */
  lemma PerformEmit(s: State, text: string, self: SelfRef)
    requires !s.panicking
    ensures Perform(s, Emit(text), self) == s.(world := s.world.(out := s.world.out + [Line(text)]))
  {
  }

  /** With every queued entry already due, `Schedule` appends to the queue. */
  lemma PerformSchedule(s: State, c: seq<Action>, self: SelfRef)
    requires !s.panicking
    requires forall i | 0 <= i < |s.tasks| :: s.tasks[i].at <= s.world.now
    ensures Perform(s, Schedule(c), self) ==
      s.(tasks := s.tasks + [Entry(s.world.now, Closure(c, self), s.nextHandle)], nextHandle := s.nextHandle + 1)
  {
    var r := NewTask(s, s.world.now, c, self);
    NewTaskAtBack(s, s.world.now, c, self);
    assert Perform(s, Schedule(c), self) == r.0;
  }

  lemma ChildrenEmits(body: seq<Action>)
    requires body != []
    ensures body[0].Emit? ==> Children(body) == Children(body[1..]) && Emits(body) == [Line(body[0].text)] + Emits(body[1..])
    ensures body[0].Schedule? ==> Children(body) == [body[0].body] + Children(body[1..]) && Emits(body) == Emits(body[1..])
  {
  }

  /** What running a plain body leaves behind: its own lines printed, and
      what it dispatches at the back of the queue, in dispatch order, each
      with a new Runner. */
  function AfterPlain(s: State, body: seq<Action>, self: SelfRef): State {
    s.(tasks := s.tasks + Spawn(Children(body), s.world.now, self, s.nextHandle),
       nextHandle := s.nextHandle + |Children(body)|,
       world := s.world.(out := s.world.out + Emits(body)))
  }

  lemma AfterPlainEmit(s: State, body: seq<Action>, self: SelfRef)
    requires body != [] && body[0].Emit?
    ensures AfterPlain(s, body, self) ==
      AfterPlain(s.(world := s.world.(out := s.world.out + [Line(body[0].text)])), body[1..], self)
  {
    ChildrenEmits(body);
    AppendAssoc(s.world.out, [Line(body[0].text)], Emits(body[1..]));
  }

  lemma AfterPlainSchedule(s: State, body: seq<Action>, self: SelfRef)
    requires body != [] && body[0].Schedule?
    ensures var t := Entry(s.world.now, Closure(body[0].body, self), s.nextHandle);
      AfterPlain(s, body, self) ==
      AfterPlain(s.(tasks := s.tasks + [t], nextHandle := s.nextHandle + 1), body[1..], self)
  {
    var t := Entry(s.world.now, Closure(body[0].body, self), s.nextHandle);
    ChildrenEmits(body);
    var later := Spawn(Children(body[1..]), s.world.now, self, s.nextHandle + 1);
    assert Spawn(Children(body), s.world.now, self, s.nextHandle) == [t] + later;
    AppendAssoc(s.tasks, [t], later);
  }

  lemma AppendAssoc<T>(a: seq<T>, b: seq<T>, c: seq<T>)
    ensures a + (b + c) == (a + b) + c
  {
  }

  /** Running a body that starts with a line prints it and runs the rest. */
  lemma ExecEmit(s: State, body: seq<Action>, self: SelfRef)
    requires !s.panicking && body != [] && body[0].Emit?
    ensures Exec(s, body, self) == Exec(s.(world := s.world.(out := s.world.out + [Line(body[0].text)])), body[1..], self)
  {
    assert body[0] == Emit(body[0].text);
    PerformEmit(s, body[0].text, self);
    ExecStep(s, body, self);
  }

  /** Running a body that starts with a `Schedule`, while every queued entry
      is due, appends the new entry and runs the rest. */
  lemma ExecSchedule(s: State, body: seq<Action>, self: SelfRef)
    requires !s.panicking && body != [] && body[0].Schedule?
    requires forall i | 0 <= i < |s.tasks| :: s.tasks[i].at <= s.world.now
    ensures var t := Entry(s.world.now, Closure(body[0].body, self), s.nextHandle);
      Exec(s, body, self) == Exec(s.(tasks := s.tasks + [t], nextHandle := s.nextHandle + 1), body[1..], self)
  {
    assert body[0] == Schedule(body[0].body);
    PerformSchedule(s, body[0].body, self);
    ExecStep(s, body, self);
  }

  lemma DueAppend(q: seq<Task>, t: Task, now: int)
    requires forall i | 0 <= i < |q| :: q[i].at <= now
    requires t.at <= now
    ensures forall i | 0 <= i < |q + [t]| :: (q + [t])[i].at <= now
  {
  }

  /** A plain body run on the trampoline prints its own lines and appends
      what it dispatches to the back of the queue; it runs none of it. */
  lemma {:induction false} ExecPlain(s: State, body: seq<Action>, self: SelfRef)
    requires !s.panicking && Plain(body)
    requires forall i | 0 <= i < |s.tasks| :: s.tasks[i].at <= s.world.now
    ensures Exec(s, body, self) == AfterPlain(s, body, self)
    decreases body, 1
  {
    if body == [] {
      assert s.tasks + [] == s.tasks;
      assert s.world.out + [] == s.world.out;
    } else {
      PlainTail(body);
      if body[0].Emit? {
        ExecPlainEmit(s, body, self);
      } else {
        ExecPlainSchedule(s, body, self);
      }
    }
  }

  lemma {:induction false} ExecPlainEmit(s: State, body: seq<Action>, self: SelfRef)
    requires !s.panicking && body != [] && body[0].Emit? && Plain(body[1..])
    requires forall i | 0 <= i < |s.tasks| :: s.tasks[i].at <= s.world.now
    ensures Exec(s, body, self) == AfterPlain(s, body, self)
    decreases body, 0
  {
    ExecEmit(s, body, self);
    ExecPlain(s.(world := s.world.(out := s.world.out + [Line(body[0].text)])), body[1..], self);
    AfterPlainEmit(s, body, self);
  }

  lemma {:induction false} ExecPlainSchedule(s: State, body: seq<Action>, self: SelfRef)
    requires !s.panicking && body != [] && body[0].Schedule? && Plain(body[1..])
    requires forall i | 0 <= i < |s.tasks| :: s.tasks[i].at <= s.world.now
    ensures Exec(s, body, self) == AfterPlain(s, body, self)
    decreases body, 0
  {
    var t := Entry(s.world.now, Closure(body[0].body, self), s.nextHandle);
    var s' := s.(tasks := s.tasks + [t], nextHandle := s.nextHandle + 1);
    ExecSchedule(s, body, self);
    DueAppend(s.tasks, t, s.world.now);
    ExecPlain(s', body[1..], self);
    AfterPlainSchedule(s, body, self);
  }

  /** The state after the trampoline runs the plain head of its queue. */
  function AfterHead(s: State): State
    requires s.tasks != []
  {
    AfterPlain(Dispatch(s), s.tasks[0].run.body, s.tasks[0].run.self).(current := None)
  }

  /** Running a due, plain, uncancelled head task. */
  lemma RunPlainHead(s: State)
    requires !s.panicking && s.tasks != [] && PlainPending(s)
    ensures RunTask(s) == (AfterHead(s), true)
  {
    var t := s.tasks[0];
    var d := Dispatch(s);
    assert t.at <= s.world.now && t.cancel !in s.closed;
    assert d.world.(now := Max(d.world.now, t.at)) == d.world;
    assert forall i | 0 <= i < |d.tasks| :: d.tasks[i].at <= d.world.now by {
      forall i | 0 <= i < |d.tasks| ensures d.tasks[i].at <= d.world.now {
        assert d.tasks[i] == s.tasks[i + 1];
      }
    }
    ExecPlain(d, t.run.body, t.run.self);
  }

  /** What the head dispatched is plain, due and uncancelled too. */
  lemma AfterHeadPending(s: State)
    requires Valid(s) && s.tasks != [] && PlainPending(s)
    ensures PlainPending(AfterHead(s))
    ensures AfterHead(s).world == s.world.(out := s.world.out + Emits(s.tasks[0].run.body))
    ensures AfterHead(s).tasks == s.tasks[1..] + Spawn(Children(s.tasks[0].run.body), s.world.now, s.tasks[0].run.self, s.nextHandle)
  {
    var body := s.tasks[0].run.body;
    var rest := s.tasks[1..];
    var spawned := Spawn(Children(body), s.world.now, s.tasks[0].run.self, s.nextHandle);
    var s' := AfterHead(s);
    assert s'.tasks == rest + spawned;
    PlainChildren(body);
    forall i | 0 <= i < |s'.tasks|
      ensures Plain(s'.tasks[i].run.body) && s'.tasks[i].at <= s'.world.now
      ensures s'.tasks[i].cancel !in s'.closed
    {
      if i >= |rest| {
        assert s'.tasks[i] == spawned[i - |rest|];
      } else {
        assert s'.tasks[i] == s.tasks[i + 1];
      }
    }
  }

  lemma BodiesSpawn(bodies: seq<seq<Action>>, at: int, self: SelfRef, h: nat)
    ensures Bodies(Spawn(bodies, at, self, h)) == bodies
  {
  }

  /** The head's lines come first, then the breadth-first order of the rest
      of the queue followed by what the head dispatched. */
  lemma AfterHeadWeight(s: State)
    requires Valid(s) && s.tasks != [] && PlainPending(s)
    ensures TotalWeight(Bodies(AfterHead(s).tasks)) < TotalWeight(Bodies(s.tasks))
    ensures BreadthFirst(Bodies(s.tasks)) == Emits(s.tasks[0].run.body) + BreadthFirst(Bodies(AfterHead(s).tasks))
  {
    var body := s.tasks[0].run.body;
    var rest := s.tasks[1..];
    var spawned := Spawn(Children(body), s.world.now, s.tasks[0].run.self, s.nextHandle);
    AfterHeadPending(s);
    BodiesAppend(rest, spawned);
    BodiesSpawn(Children(body), s.world.now, s.tasks[0].run.self, s.nextHandle);
    assert Bodies(s.tasks) == [body] + Bodies(rest);
    assert Bodies(s.tasks)[1..] == Bodies(rest);
    ChildrenLighter(body);
    TotalWeightAppend(Bodies(rest), Children(body));
  }

  /** `Wait` on plain tasks, trampoline.go:107-110 with the examples of
      scheduler_test.go:40-75: every task prints its own lines before any
      task it dispatched runs, so the output is the breadth-first order of
      the dispatch tree, and the queue ends empty. */
  lemma {:induction false} WaitPlainBreadthFirst(s: State, fuel: nat)
    requires Valid(s) && !s.panicking && PlainPending(s)
    requires fuel >= TotalWeight(Bodies(s.tasks))
    ensures Wait(s, fuel).Drained?
    ensures Wait(s, fuel).state.world == s.world.(out := s.world.out + BreadthFirst(Bodies(s.tasks)))
    decreases TotalWeight(Bodies(s.tasks)), 1
  {
    if s.tasks == [] {
      WaitEmpty(s, fuel);
    } else {
      WaitPlainHead(s, fuel);
    }
  }

  /** On an empty queue `Wait` returns at once. */
  lemma WaitEmpty(s: State, fuel: nat)
    requires !s.panicking && s.tasks == []
    ensures Wait(s, fuel) == Drained(s)
    ensures BreadthFirst(Bodies(s.tasks)) == [] && s.world.out + [] == s.world.out
  {
  }

  lemma {:induction false} WaitPlainHead(s: State, fuel: nat)
    requires Valid(s) && !s.panicking && PlainPending(s) && s.tasks != []
    requires fuel >= TotalWeight(Bodies(s.tasks))
    ensures Wait(s, fuel).Drained?
    ensures Wait(s, fuel).state.world == s.world.(out := s.world.out + BreadthFirst(Bodies(s.tasks)))
    decreases TotalWeight(Bodies(s.tasks)), 0
  {
    var s' := AfterHead(s);
    AfterHeadWeight(s);
    WaitPlainStep(s, fuel);
    AfterHeadPending(s);
    WaitPlainBreadthFirst(s', fuel - 1);
    AppendAssoc(s.world.out, Emits(s.tasks[0].run.body), BreadthFirst(Bodies(s'.tasks)));
  }

  /** `Wait` runs the plain head task and carries on with the rest. */
  lemma WaitPlainStep(s: State, fuel: nat)
    requires Valid(s) && !s.panicking && s.tasks != [] && PlainPending(s) && fuel > 0
    ensures Valid(AfterHead(s)) && !AfterHead(s).panicking
    ensures Wait(s, fuel) == Wait(AfterHead(s), fuel - 1)
  {
    RunPlainHead(s);
  }

  /** Dispatching plain bodies from outside any task and then calling
      `Wait` prints the breadth-first order of the dispatch tree. */
  lemma ScheduleThenWait(gid: string, w: World, program: seq<Action>, fuel: nat)
    requires Plain(program)
    requires fuel >= TotalWeight(Children(program))
    ensures var s := Exec(MakeTrampoline(gid, w), program, NoSelf);
      && s.world == w.(out := w.out + Emits(program))
      && !s.panicking
      && Wait(s, fuel).Drained?
      && Wait(s, fuel).state.world.out == w.out + Emits(program) + BreadthFirst(Children(program))
      && Count(Wait(s, fuel).state) == 0
  {
    var s0 := MakeTrampoline(gid, w);
    ExecPlain(s0, program, NoSelf);
    ProgramPending(gid, w, program);
    WaitPlainBreadthFirst(AfterPlain(s0, program, NoSelf), fuel);
  }

  /** What a plain program dispatches from outside any task is plain, due
      and uncancelled, and `Wait` will run exactly those bodies first. */
  lemma ProgramPending(gid: string, w: World, program: seq<Action>)
    requires Plain(program)
    ensures var s := AfterPlain(MakeTrampoline(gid, w), program, NoSelf);
      && Valid(s) && PlainPending(s) && Bodies(s.tasks) == Children(program) && s.current == None
  {
    var s := AfterPlain(MakeTrampoline(gid, w), program, NoSelf);
    var spawned := Spawn(Children(program), w.now, NoSelf, 0);
    assert s.tasks == spawned;
    assert Valid(s) by {
      InsertOrderDue(spawned);
    }
    assert PlainPending(s) by {
      PlainChildren(program);
    }
    BodiesSpawn(Children(program), w.now, NoSelf, 0);
  }

  lemma InsertOrderDue(q: seq<Task>)
    requires forall i, j | 0 <= i < j < |q| :: q[i].at == q[j].at
    ensures Sorted(q)
  {
  }

  /** `Wait` runs the head task and carries on with the rest. */
  lemma WaitStep(s: State, fuel: nat)
    requires !s.panicking && s.tasks != [] && fuel > 0
    requires !RunTask(s).0.panicking
    ensures Wait(s, fuel) == Wait(RunTask(s).0, fuel - 1)
  {
  }

  /** A drain that only meets cancelled entries drops them all without
      running any: the world is left exactly as it was (trampoline.go:136-172). */
  lemma {:induction false} CancelledNeverRun(s: State, fuel: nat)
    requires !s.panicking && s.tasks != []
    requires forall i | 0 <= i < |s.tasks| :: s.tasks[i].cancel in s.closed
    requires fuel >= |s.tasks|
    ensures Wait(s, fuel) == Drained(s.(tasks := [], current := None))
    decreases |s.tasks|, 1
  {
    var s' := s.(tasks := s.tasks[1..], current := None);
    WaitStep(s, fuel);
    if s.tasks[1..] == [] {
      WaitEmpty(s', fuel - 1);
    } else {
      CancelledRest(s, fuel);
    }
  }

  lemma {:induction false} CancelledRest(s: State, fuel: nat)
    requires !s.panicking && |s.tasks| > 1
    requires forall i | 0 <= i < |s.tasks| :: s.tasks[i].cancel in s.closed
    requires fuel >= |s.tasks|
    ensures Wait(s.(tasks := s.tasks[1..], current := None), fuel - 1) == Drained(s.(tasks := [], current := None))
    decreases |s.tasks|, 0
  {
    CancelledTail(s.tasks, s.closed);
    CancelledNeverRun(s.(tasks := s.tasks[1..], current := None), fuel - 1);
  }

  lemma CancelledTail(q: seq<Task>, closed: set<nat>)
    requires q != [] && forall i | 0 <= i < |q| :: q[i].cancel in closed
    ensures forall i | 0 <= i < |q[1..]| :: q[1..][i].cancel in closed
  {
    forall i | 0 <= i < |q[1..]| ensures q[1..][i].cancel in closed {
      assert q[1..][i] == q[i + 1];
    }
  }

  /** Cancelling a recursive task's Runner before the drain suppresses the
      chain, whatever its body (trampoline.go:72-84 with 18-22). */
  lemma CancelledChainNeverRuns(s: State, body: seq<Action>, fuel: nat)
    requires Valid(s) && !s.panicking && s.tasks == [] && fuel >= 1
    ensures var (s1, h) := Trampoline.ScheduleRecursive(s, body);
      var s2 := CancelRunner(s1, h);
      && !s2.panicking
      && Wait(s2, fuel) == Drained(s2.(tasks := [], current := None))
      && Wait(s2, fuel).state.world == s.world
  {
    var (s1, h) := Trampoline.ScheduleRecursive(s, body);
    var s2 := CancelRunner(s1, h);
    assert |s1.tasks| == 1 by {
      assert |multiset(s1.tasks)| == 1;
    }
    assert s1.tasks[0] in multiset(s1.tasks);
    CancelledNeverRun(s2, fuel);
  }

  /** An action that does not involve the scheduler only changes the world. */
  lemma ExecLocalStep(s: State, actions: seq<Action>, self: SelfRef)
    requires !s.panicking && actions != [] && IsLocal(actions[0])
    ensures Exec(s, actions, self) == Exec(s.(world := Local(s.world, actions[0])), actions[1..], self)
  {
    ExecStep(s, actions, self);
  }

  /** `if i < n { self(d) }`. */
  lemma ExecAgainBranch(s: State, n: int, d: int, self: SelfRef)
    requires !s.panicking
    ensures Exec(s, [IfBelow(n, [Again(d)])], self) == if s.world.counter < n then CallSelf(s, self, d) else s
  {
    ExecStep(s, [IfBelow(n, [Again(d)])], self);
    if s.world.counter < n {
      ExecStep(s, [Again(d)], self);
    }
  }

  /** The one entry a `self` call queues on an empty queue. */
  lemma CallSelfEmpty(s: State, self: SelfRef, d: int)
    requires self.SelfOf? && s.tasks == []
    ensures CallSelf(s, self, d) ==
      s.(tasks := [Entry(if self.timed then s.world.now + d else s.world.now, Closure(self.task, self), self.cancel)])
  {
    var at := if self.timed then s.world.now + d else s.world.now;
    assert Insert([], Entry(at, Closure(self.task, self), self.cancel)) == [Entry(at, Closure(self.task, self), self.cancel)];
  }

  /** The entry a counting chain queues for its next run, if any. */
  function NextRun(s: State, n: int, d: int, self: SelfRef): seq<Task>
    requires self.SelfOf?
  {
    if s.world.counter + 1 < n
    then [Entry(if self.timed then s.world.now + d else s.world.now, Closure(self.task, self), self.cancel)]
    else []
  }

  /** One run of the counting body on an otherwise empty queue: it prints
      `i`, bumps it, and queues the next run while `i < n`. */
  lemma ExecCounterLoop(s: State, n: int, d: int, self: SelfRef)
    requires !s.panicking && self.SelfOf? && s.tasks == []
    ensures Exec(s, CounterLoop(n, d), self) ==
      s.(tasks := NextRun(s, n, d, self),
         world := s.world.(counter := s.world.counter + 1, out := s.world.out + [Num(s.world.counter)]))
  {
    var body := CounterLoop(n, d);
    ExecLocalStep(s, body, self);
    var s1 := s.(world := Local(s.world, EmitCounter));
    ExecLocalStep(s1, body[1..], self);
    var s2 := s1.(world := Local(s1.world, Increment));
    assert body[1..][1..] == [IfBelow(n, [Again(d)])];
    ExecAgainBranch(s2, n, d, self);
    if s2.world.counter < n {
      CallSelfEmpty(s2, self, d);
    }
  }

  /** The queue entry of a counting chain's run due at `at`. */
  function ChainEntry(n: int, d: int, h: nat, timed: bool, at: int): Task {
    Entry(at, Closure(CounterLoop(n, d), SelfOf(CounterLoop(n, d), h, timed)), h)
  }

  /** The state after one run of a counting chain. */
  function ChainAfter(s: State, n: int, d: int, h: nat, timed: bool, at: int): State {
    var now := Max(s.world.now, at);
    var next := if timed then now + d else now;
    s.(tasks := if s.world.counter + 1 < n then [ChainEntry(n, d, h, timed, next)] else [],
       current := None,
       world := s.world.(now := now, counter := s.world.counter + 1, out := s.world.out + [Num(s.world.counter)]))
  }

  /** `RunTask` on a queue holding only the next run of a counting chain. */
  lemma RunCounterLoop(s: State, n: int, d: int, h: nat, timed: bool, at: int)
    requires !s.panicking && h !in s.closed
    requires s.tasks == [ChainEntry(n, d, h, timed, at)]
    ensures RunTask(s) == (ChainAfter(s, n, d, h, timed, at), true)
  {
    var self := SelfOf(CounterLoop(n, d), h, timed);
    var r := Dispatch(s).(world := s.world.(now := Max(s.world.now, at)));
    ExecCounterLoop(r, n, d, self);
  }

  lemma WaitCounterLoop(s: State, n: int, d: int, h: nat, timed: bool, at: int, fuel: nat)
    requires !s.panicking && h !in s.closed && fuel > 0
    requires s.tasks == [ChainEntry(n, d, h, timed, at)]
    ensures Wait(s, fuel) == Wait(ChainAfter(s, n, d, h, timed, at), fuel - 1)
  {
    RunCounterLoop(s, n, d, h, timed, at);
    WaitStep(s, fuel);
  }

  /** One run of a counting chain and the runs it leads to. */
  lemma {:induction false} CountingChainRuns(s: State, n: int, d: int, h: nat, timed: bool, at: int, fuel: nat)
    requires !s.panicking && h !in s.closed && s.world.counter < n
    requires s.tasks == [ChainEntry(n, d, h, timed, at)]
    requires fuel >= n - s.world.counter
    ensures Wait(s, fuel).Drained?
    ensures var w := Wait(s, fuel).state.world;
      && w.out == s.world.out + Nums(s.world.counter, n)
      && w.counter == n
      && w.now == Max(s.world.now, at) + (n - s.world.counter - 1) * (if timed then Pos(d) else 0)
    decreases n - s.world.counter, 1
  {
    WaitCounterLoop(s, n, d, h, timed, at, fuel);
    if s.world.counter + 1 < n {
      CountingChainNext(s, n, d, h, timed, at, fuel);
    } else {
      WaitEmpty(ChainAfter(s, n, d, h, timed, at), fuel - 1);
      assert Nums(s.world.counter, n) == [Num(s.world.counter)];
    }
  }

  lemma {:induction false} CountingChainNext(s: State, n: int, d: int, h: nat, timed: bool, at: int, fuel: nat)
    requires !s.panicking && h !in s.closed && s.world.counter + 1 < n
    requires fuel >= n - s.world.counter
    ensures var s' := ChainAfter(s, n, d, h, timed, at);
      var w := Wait(s', fuel - 1).state.world;
      && Wait(s', fuel - 1).Drained?
      && w.out == s.world.out + Nums(s.world.counter, n)
      && w.counter == n
      && w.now == Max(s.world.now, at) + (n - s.world.counter - 1) * (if timed then Pos(d) else 0)
    decreases n - s.world.counter, 0
  {
    var j := s.world.counter;
    var now := Max(s.world.now, at);
    var next := if timed then now + d else now;
    var s' := ChainAfter(s, n, d, h, timed, at);
    CountingChainRuns(s', n, d, h, timed, next, fuel - 1);
    ChainClock(now, d, timed, n - j - 1);
    AppendAssoc(s.world.out, [Num(j)], Nums(j + 1, n));
  }

  /** Each further run of a timed chain is due `Pos(d)` after the previous. */
  lemma ChainClock(now: int, d: int, timed: bool, k: int)
    ensures var p := if timed then Pos(d) else 0;
      Max(now, if timed then now + d else now) + (k - 1) * p == now + k * p
  {
    var p := if timed then Pos(d) else 0;
    assert Max(now, if timed then now + d else now) == now + p;
    assert (k - 1) * p + p == k * p;
  }

  /** `ScheduleRecursive` / `ScheduleFutureRecursive` of a body that calls
      `self` while `i < n` (scheduler_test.go:77-100, 162-193): with `i`
      starting at 0 the drain runs the body `n` times, printing 0 up to
      `n - 1` in order, each run a separate queue entry of one chain. Every
      `self(d)` puts the next run `d` later. */
  lemma CountingChain(gid: string, w: World, n: int, d0: int, d: int, timed: bool, fuel: nat)
    requires w.counter < n && fuel >= n - w.counter
    ensures var first := if timed then ScheduleFutureRecursive(d0, CounterLoop(n, d)) else ScheduleRecursive(CounterLoop(n, d));
      var s := Exec(MakeTrampoline(gid, w), [first], NoSelf);
      && s.world == w
      && !s.panicking
      && Wait(s, fuel).Drained?
      && Wait(s, fuel).state.world.out == w.out + Nums(w.counter, n)
      && Wait(s, fuel).state.world.counter == n
      && Wait(s, fuel).state.world.now == w.now + (if timed then Pos(d0) + (n - w.counter - 1) * Pos(d) else 0)
  {
    var s0 := MakeTrampoline(gid, w);
    var body := CounterLoop(n, d);
    var first := if timed then ScheduleFutureRecursive(d0, body) else ScheduleRecursive(body);
    var at := if timed then w.now + d0 else w.now;
    ExecStep(s0, [first], NoSelf);
    var e := Entry(at, Closure(body, SelfOf(body, 0, timed)), 0);
    var s := Exec(s0, [first], NoSelf);
    assert Insert([], e) == [e];
    assert s == s0.(tasks := [ChainEntry(n, d, 0, timed, at)], nextHandle := 1);
    CountingChainRuns(s, n, d, 0, timed, at, fuel);
  }

  /** Two future tasks dispatched one after the other (trampoline.go:86-91):
      the one due earlier runs first, and when both are due at the same
      instant they run in dispatch order. */
  lemma EarlierDueRunsFirst(gid: string, w: World, d1: int, a: string, d2: int, b: string, fuel: nat)
    requires fuel >= 2
    ensures var s := Exec(MakeTrampoline(gid, w), [ScheduleFuture(d1, [Emit(a)]), ScheduleFuture(d2, [Emit(b)])], NoSelf);
      && !s.panicking
      && Wait(s, fuel).Drained?
      && Wait(s, fuel).state.world.out == w.out + if d2 < d1 then [Line(b), Line(a)] else [Line(a), Line(b)]
  {
    var e1 := Entry(w.now + d1, Closure([Emit(a)], NoSelf), 0);
    var e2 := Entry(w.now + d2, Closure([Emit(b)], NoSelf), 1);
    var q := if d2 < d1 then [e2, e1] else [e1, e2];
    var s := MakeTrampoline(gid, w).(tasks := q, nextHandle := 2);
    TwoFutures(gid, w, d1, a, d2, b);
    var sa := RunLine(s);
    var sb := RunLine(sa);
    RunLineHead(s);
    RunLineHead(sa);
    WaitStep(s, fuel);
    WaitStep(sa, fuel - 1);
    WaitEmpty(sb, fuel - 2);
  }

  /** Dispatching the two future tasks queues them in due order. */
  lemma TwoFutures(gid: string, w: World, d1: int, a: string, d2: int, b: string)
    ensures var e1 := Entry(w.now + d1, Closure([Emit(a)], NoSelf), 0);
      var e2 := Entry(w.now + d2, Closure([Emit(b)], NoSelf), 1);
      Exec(MakeTrampoline(gid, w), [ScheduleFuture(d1, [Emit(a)]), ScheduleFuture(d2, [Emit(b)])], NoSelf) ==
      MakeTrampoline(gid, w).(tasks := if d2 < d1 then [e2, e1] else [e1, e2], nextHandle := 2)
  {
    var s0 := MakeTrampoline(gid, w);
    var later := [ScheduleFuture(d2, [Emit(b)])];
    var e1 := Entry(w.now + d1, Closure([Emit(a)], NoSelf), 0);
    var e2 := Entry(w.now + d2, Closure([Emit(b)], NoSelf), 1);
    var s1 := s0.(tasks := [e1], nextHandle := 1);
    var s2 := s0.(tasks := Insert([e1], e2), nextHandle := 2);
    InsertTwo(e1, e2);
    assert [ScheduleFuture(d1, [Emit(a)]), ScheduleFuture(d2, [Emit(b)])] == [ScheduleFuture(d1, [Emit(a)])] + later;
    assert later == [ScheduleFuture(d2, [Emit(b)])] + [];
    ExecFuture(s0, d1, [Emit(a)], later, NoSelf, s1);
    ExecFuture(s1, d2, [Emit(b)], [], NoSelf, s2);
  }

  /** Running a body that starts with a `ScheduleFuture` inserts the new
      entry and runs the rest. */
  lemma ExecFuture(s: State, d: int, c: seq<Action>, rest: seq<Action>, self: SelfRef, s': State)
    requires !s.panicking
    requires s' == s.(tasks := Insert(s.tasks, Entry(s.world.now + d, Closure(c, self), s.nextHandle)), nextHandle := s.nextHandle + 1)
    ensures Exec(s, [ScheduleFuture(d, c)] + rest, self) == Exec(s', rest, self)
  {
    var p := [ScheduleFuture(d, c)] + rest;
    assert p[0] == ScheduleFuture(d, c) && p[1..] == rest;
    PerformFuture(s, d, c, self);
    ExecStep(s, p, self);
  }

  lemma PerformFuture(s: State, d: int, c: seq<Action>, self: SelfRef)
    requires !s.panicking
    ensures Perform(s, ScheduleFuture(d, c), self) ==
      s.(tasks := Insert(s.tasks, Entry(s.world.now + d, Closure(c, self), s.nextHandle)), nextHandle := s.nextHandle + 1)
  {
    var a := ScheduleFuture(d, c);
    assert DueAt(s.world.now, a) == s.world.now + d && SelfFor(a, s.nextHandle, self) == self;
    assert Perform(s, a, self) == NewTask(s, s.world.now + d, c, self).0;
  }

  /** Two insertions into an empty queue order the entries by due instant,
      ties in insertion order. */
  lemma InsertTwo(e1: Task, e2: Task)
    ensures Insert([], e1) == [e1]
    ensures Insert([e1], e2) == if e2.at < e1.at then [e2, e1] else [e1, e2]
  {
    InsertFirst(e1);
    if e2.at < e1.at {
      InsertAhead(e1, e2);
    } else {
      InsertBehind(e1, e2);
    }
  }

  lemma InsertFirst(e1: Task)
    ensures Insert([], e1) == [e1]
  {
    var q: seq<Task> := [];
    assert InsertionPoint(q, e1.at) == 0;
    assert q[..0] + [e1] + q[0..] == [e1];
  }

  lemma InsertAhead(e1: Task, e2: Task)
    requires e2.at < e1.at
    ensures Insert([e1], e2) == [e2, e1]
  {
    assert InsertionPoint([e1], e2.at) == 0;
    assert [e1][..0] + [e2] + [e1][0..] == [e2, e1];
  }

  lemma InsertBehind(e1: Task, e2: Task)
    requires e1.at <= e2.at
    ensures Insert([e1], e2) == [e1, e2]
  {
    assert [e1][1..] == [];
    assert InsertionPoint([e1], e2.at) == 1;
    assert [e1][..1] + [e2] + [e1][1..] == [e1, e2];
  }

  /** The state after running a head task that prints one line. */
  function RunLine(s: State): State
    requires s.tasks != [] && |s.tasks[0].run.body| == 1 && s.tasks[0].run.body[0].Emit?
  {
    s.(tasks := s.tasks[1..], current := None,
       world := s.world.(now := Max(s.world.now, s.tasks[0].at),
                         out := s.world.out + [Line(s.tasks[0].run.body[0].text)]))
  }

  lemma RunLineHead(s: State)
    requires !s.panicking && s.tasks != [] && s.tasks[0].cancel !in s.closed
    requires |s.tasks[0].run.body| == 1 && s.tasks[0].run.body[0].Emit?
    ensures RunTask(s) == (RunLine(s), true)
  {
    var t := s.tasks[0];
    var d := Dispatch(s).(world := s.world.(now := Max(s.world.now, t.at)));
    ExecEmit(d, t.run.body, t.run.self);
  }

  /** While a task runs, `Count` is the queue length plus one for the running
      task (trampoline.go:178-184): whatever the body has dispatched so far
      is counted along with it. */
  lemma CountWhileRunning(s: State, body: seq<Action>, self: SelfRef)
    requires s.tasks != [] && s.current == None
    ensures Count(Dispatch(s)) == Count(s)
    ensures Count(Exec(Dispatch(s), body, self)) == |Exec(Dispatch(s), body, self).tasks| + 1
  {
  }
}

=== FILE: wrappers.dfy ===
/** The optional value shared by the scheduler and the id parser: Go's nil
    pointer or nil error on one side, a present value on the other. */
module Wrappers {
  datatype Option<T> = None | Some(value: T)
}
